=== FILE: README.md ===
# Multi-threaded HTTP server: request handling core in Dafny

This project models the sequential text-processing core of a small
thread-per-connection HTTP/1.1 server written in Python (`server.py`).
For each connection the server reads once from the socket and decodes the
bytes as UTF-8. It splits the text on CRLF and takes the method and path
from the request line. It then answers in one of four ways:

- `GET /` returns a landing page.
- Any other `GET` serves a file under `resources/`.
- `POST` stores a JSON body under `uploads/`.
- Any other method gets `405 Method Not Allowed`.

A response is a status line, six fixed headers, any extra headers, a
blank line and the content bytes.

The model is written as pure functions over strings. Everything the Python
code gets from the outside world is a parameter:

- the decoded text of the first read;
- the decoded text of the one extra read (`recv`);
- the filesystem (a map from path to file bytes, a directory, or an
  entry that cannot be opened for reading);
- `mimetypes.guess_type`;
- `json.loads` and `json.dump`;
- the clock reading and the six random letters used in upload names;
- the `Date` header's text.

Modules, leaf first:

- `Results` (results.dfy): `Option` and `Result`.
- `Text` (text.dfy): Python's substring test, `str.split`, `str.join`,
  `split(sep, 1)[1]`, `str.strip` (with Python's exact whitespace set),
  `int()` and `str()`. The join is a plain definition; the others carry
  contracts that characterise them.
- `Utf8` (utf8.dfy): UTF-8 encoding and how its length relates to the
  character count.
- `Headers` (headers.dfy): reading an integer header field with
  `int(line.split(":")[1].strip())`.
- `Http` (http.dfy): `send_response`. This covers the reason table, the
  header list and the wire bytes, plus lemmas on how a client can parse
  those bytes.
- `Get` (get.dfy): `handle_get`.
- `Post` (post.dfy): `handle_post`.
- `Dispatch` (dispatch.dfy): `handle_client`.

The model follows the code in three places a reader may not expect:

- The `Content-Length` scan walks every CRLF-separated line of the buffer,
  including the request line and the body lines, not only header lines.
- The header value is the text between the first and second colons, not
  everything after the colon.
- A `GET` whose path resolves to a directory passes the existence check.
  Opening it then raises, and the dispatcher answers 500.

The POST handler compares the body's length in characters with
`Content-Length`, which counts bytes (see "## Findings"). `Post.ReadBody`,
`Post.HandlePost`, `Dispatch.Route` and `Dispatch.HandleClient` therefore
take a `Post.LengthRule`. `CountsCharacters` is the code as written and
`CountsBytes` is the evident intent. Each end-to-end property is stated
for the code as written on ASCII bodies and for the byte count on all
bodies. The code as written over-reads on non-ASCII bodies, and the model
proves that too.

## Model

| member | source | states |
|---|---|---|
| Text.Find | server.py:80 | The result is the first index where the pattern occurs. It is absent exactly when the pattern does not occur, which is Python's `pattern in line`. |
| Text.Split | server.py:30-31 | Joining the pieces with the separator gives back the input. No piece contains the separator. There is more than one piece exactly when the separator occurs. Each separator between pieces is the first occurrence in the text from the start of the piece before it, which fixes the pieces even for a separator that overlaps itself. |
| Text.SplitJoin | server.py:30-31 | Splitting a join of pieces that lack the separator's first character gives back exactly those pieces. |
| Text.SplitAfterLines | server.py:30 | Splitting text that begins with separator-free lines, each followed by the separator, gives exactly those lines and then the split of what follows. |
| Text.SplitFirst | server.py:30-31 | The first piece of a split is the text before the first separator, or the whole input when there is none. |
| Text.After | server.py:85 | `split(sep, 1)[1]` is absent exactly when the separator does not occur. Otherwise the input is the text before the first occurrence, then the separator, then the result. |
| Text.Trim | server.py:81 | The result is a slice of the input. Only stripped characters lie around it, and neither of its own ends is a stripped character. |
| Text.ParseInt | server.py:81 | `int()` accepts exactly an optional sign followed by digits, where single underscores may sit between digits. The sign decides the sign of the value. The value's decimal rendering is the input with the `+`, the underscores and the leading zeros removed, and with no `-` on zero. |
| Text.IntRoundTrip | server.py:81 | Parsing the decimal rendering of any integer gives back that integer. |
| Text.ParseIntCanonical | server.py:81 | Every accepted input parses to the same value as its canonical decimal rendering. |
| Utf8.EncodedLength | server.py:122-123 | The UTF-8 byte length equals the character count exactly when every character is ASCII. |
| Utf8.EncodeAscii | server.py:122-123 | An ASCII text encodes one byte per character, each byte carrying the character's code. |
| Utf8.EncodeAppend | server.py:140 | Encoding a concatenation gives the concatenation of the encodings. |
| Headers.IntegerField | server.py:81 | A line without a colon raises `IndexError`. Otherwise the value is the integer parsed from the stripped text between the first and second colons. For every way of reading the line as `name:field` with a colon-free name and field, the result is exactly `int(field.strip())` or its failure. |
| Headers.IntegerFieldRoundTrip | server.py:130 | A `Name: <n>` line, with no colon in the name, reads back as `n`. |
| Headers.FieldAtUnique | server.py:81 | A line has at most one reading as a colon-free name, a colon, and a colon-free field that ends the line or is followed by a colon. This is why `split(":")[1]` is well defined. |
| Http.Reason | server.py:111-119 | 200, 201, 400, 404, 405 and 500 get OK, Created, Bad Request, Not Found, Method Not Allowed and Internal Server Error. Every other code gets "OK". |
| Http.StatusLine | server.py:126 | The status line is `HTTP/1.1 `, then the code's decimal digits, a space and the reason phrase the table gives for the code. The digits hold no space, so the code and the phrase can be read back from their positions. |
| Http.DateLine | server.py:128 | The `Date` line carries the name `Date` and the date text verbatim. It is safe when the date has no carriage return. |
| Http.ContentTypeLine | server.py:129 | The `Content-Type` line carries the name, then the content type verbatim, then the `; charset=utf-8` suffix. |
| Http.ContentLengthLine | server.py:130 | The `Content-Length` line carries the name and the decimal length, and is always safe. |
| Http.FixedLines | server.py:125-133 | Every response carries seven fixed lines, in this order: the status line, `Server`, `Date`, `Content-Type`, `Content-Length`, `Connection` and `Keep-Alive`. Each line is built by its own line function. Each is non-empty and free of carriage returns when the date and the content type are. |
| Http.FixedLinesLayout | server.py:125-133 | What a client reads back from the fixed lines. From the status line: the code, which parses back, and its reason phrase. The header names, in order: Server, Date, Content-Type, Content-Length, Connection, Keep-Alive. The date, verbatim. The content type, verbatim and followed by `; charset=utf-8`. |
| Http.HeaderLines | server.py:125-137 | The fixed lines come first, then one `name: value` line per extra header in insertion order. Every line is non-empty and free of carriage returns when no field holds one. |
| Http.Head | server.py:139-140 | Appending the `"\r\n"` entry before joining ends the header block with exactly one CRLF CRLF after the last header line. |
| Http.Serialize | server.py:125-140 | The bytes sent are the encoded header lines, then exactly one CRLF CRLF, then the content bytes verbatim. |
| Http.HeadSplitsIntoLines | server.py:125-139 | When no field holds a carriage return, splitting the header block on CRLF gives the status line, the six fixed headers in order and the extra headers in insertion order, followed by the terminator's two empty pieces. |
| Http.ContentLengthReadsBack | server.py:122-130 | The `Content-Length` line, read with the server's own header-field parse, gives the byte length of the content sent. Text is counted after UTF-8 encoding; binary content is counted as given. |
| Http.FirstBlankLine | server.py:139-140 | In CRLF-joined lines that are non-empty and free of carriage returns, the first CRLF CRLF is the terminator. |
| Http.TextAfterBlankLine | server.py:139-140 | For text content, the text after the response's first blank line is exactly the content. The bytes sent are the encoding of header block and content together. |
| Http.NoWireBlankLineInside | server.py:139-140 | In the UTF-8 bytes of CRLF-joined lines that are non-empty and free of carriage returns, no 13 10 13 10 starts before the terminator. |
| Http.WireFraming | server.py:122-141 | For any content, the first 13 10 13 10 in the bytes sent comes right after the encoded header lines, and everything after it is exactly the content bytes. |
| Http.ResponseFraming | server.py:110-140 | The framing a client relies on: the header lines split back out and `Content-Length` matches the content. For any content, text or binary, the first CRLF CRLF of the bytes sent ends the encoded header lines and is followed by exactly the content bytes. For text content, the text after the first blank line is exactly the content. |
| Get.ResolvePath | server.py:59 | The resolved path is `resources/` followed by a slice of the request path. Only slashes lie around that slice, and the slice neither starts nor ends with a slash. |
| Get.Basename | server.py:68 | The base name holds no slash. It is a suffix of the path and is preceded by a slash unless it is the whole path. |
| Get.ContentTypeFor | server.py:64-65 | The content type is never empty. It is the guessed type when one is guessed and non-empty, and `application/octet-stream` otherwise. |
| Get.Disposition | server.py:67-69 | The `Content-Disposition` value is `inline; filename="<name>"`, where the name is the path's base name: a slash-free suffix of the path that follows a slash or is the whole path. |
| Get.HandleGet | server.py:54-72 | `/` gives 200 with the banner as `text/html`. A missing path gives 404 with the not-found page. A directory, or an entry that cannot be opened, gives a fault naming the path. A file gives 200 with its exact bytes, its guessed type and a `Content-Disposition` header. |
| Get.ResolveSimpleName | server.py:59 | `/<name>` for a name without slashes resolves to `resources/<name>`. |
| Get.BasenameAfterSlash | server.py:68 | The base name of `resources/<name>` is `<name>`. |
| Get.ServesStoredFile | server.py:59-70 | Requesting `/<name>` for a stored file gives 200 with exactly the file's bytes, the guessed type and `inline; filename="<name>"`. |
| Post.ScanContentLength | server.py:78-82 | With no line mentioning `Content-Length` the value is 0. Otherwise it is determined by the first such line alone, whether that is a header, the request line or a body line. |
| Post.FirstMention | server.py:79-82 | There is no stopping index exactly when no line mentions `Content-Length`. Otherwise the index is in range, its line mentions the name and no earlier line does. |
| Post.TopUpAsWritten | server.py:86-87 | As written, a top-up read is made exactly when the body's character count is below the declared length. It asks for the difference. |
| Post.TopUpBytes | server.py:86-87 | As intended, a top-up read is made exactly when the body's UTF-8 byte count is below the declared length. It asks for the missing bytes. |
| Post.TopUpCompletesBody | server.py:86-87 | A top-up read that delivers the bytes asked for leaves the body with exactly the declared byte count. No read is made once the body has that many bytes. |
| Post.TopUpAgreesOnAscii | server.py:86-87 | For an ASCII body the as-written and intended decisions coincide. |
| Post.TopUpAsWrittenOverReads | server.py:86-87 | For the complete two-byte body "é" with `Content-Length: 2`, the code as written asks for one more byte. The intended decision asks for none. |
| Post.TopUp | server.py:86-87 | Under either length rule, a read is made exactly when the measured body length is below the declared length, and it asks for the shortfall. |
| Post.ReadBody | server.py:78-87 | A bad `Content-Length` field or a missing blank line fails with no read. Otherwise the body is the text after the first blank line. At most one extra read is made, exactly when the rule's measure of that text falls short of the declared length, and it asks for the shortfall. Its decoded text is appended; a read that raises or is not UTF-8 fails. |
| Post.ReadBodyAgreesOnAscii | server.py:78-87 | When the text after the blank line is ASCII, or there is no blank line, the code as written and the byte count read the same body with the same extra read. |
| Post.DeclaredBodyTopUp | server.py:78-87 | Take a request where the first line does not mention `Content-Length`, the second line declares the byte length of the text after the blank line, and every line is non-empty and free of carriage returns. The scan finds that length and that text, and the rule's measure of the text decides the extra read. |
| Post.HandlePost | server.py:75-107 | The status is 201 or 400. It is 201 exactly when the completed body parses as JSON. Then the parsed value, re-dumped, is stored at `uploads/upload_<stamp>_<letters>.json` and the success envelope names that path. Every failure gives the fixed 400 envelope and writes nothing. |
| Post.DeclaredLengthLine | server.py:80-81 | A `Content-Length: <n>` line is recognised by the scan and reads back as `n`. |
| Post.ScanFindsDeclaredLength | server.py:78-82 | When the first line does not mention the header and the second is `Content-Length: <n>`, the scan gives `n`, whatever the body holds. |
| Post.CompleteBodyIsReadAsIs | server.py:78-87 | When the first line does not mention `Content-Length`, the second declares the byte length of what follows the header block's blank line, and every line is non-empty and free of carriage returns, no extra read is made and the body is exactly that text. This holds as written for ASCII bodies, and with the byte count for all bodies. |
| Post.CompleteBodyOverReadAsWritten | server.py:78-87 | Under the same conditions, the code as written still makes an extra read for a complete body that is not ASCII. It asks for as many bytes as the body has more bytes than characters, at least one. |
| Post.StoresDeclaredBody | server.py:78-103 | Under the same conditions (the first line does not mention `Content-Length`, the second line declares the body's byte length, every line is non-empty and free of carriage returns), a JSON body gets 201 with no extra read. The stored file parses back to the posted value when the JSON library reads back what it writes. This holds as written for ASCII bodies, and with the byte count for all bodies. |
| Post.UploadRoundTrip | server.py:90-95 | When the completed body parses to a value that the JSON library reads back from its own output, a file is stored and it parses to that same value. |
| Post.FileName | server.py:91 | The name is `upload_`, the stamp, `_`, the letters and `.json`. The stamp and the letters can be read back from their fixed positions. |
| Post.SuccessEnvelope | server.py:97-103 | The success envelope is a fixed prefix, then `/` and the stored path, then `"}`. The path can be read back from between them. |
| Post.FileNameIsPlain | server.py:91-100 | The generated file name holds only ASCII letters, digits, `_` and `.`. So it has no slash and nothing JSON would escape in the success envelope. |
| Dispatch.FirstLine | server.py:30-31 | The first line holds no CRLF. It is either the whole buffer or a prefix of the buffer followed by CRLF. |
| Dispatch.ParseRequestLine | server.py:31-33 | Parsing fails exactly when the line has no space. Otherwise the method and path hold no space, and the line is `method path` or starts with `method path `. |
| Dispatch.Route | server.py:35-44 | GET goes to the GET handler with the path, and a fault there becomes 500. POST goes to the POST handler with all lines of the buffer and the buffer itself. Every other method gets 405. Every status has its own reason-table entry, a stored upload comes only with 201, and an extra read only with 201 or 400. |
| Dispatch.HandleClient | server.py:22-48 | An empty read gives no response. An undecodable read or a request line without a space gives 500. Otherwise the request is routed by the method and path of its first line. Every status sent has its own entry in the reason table. |
| Dispatch.FirstLineOf | server.py:30 | The first line of `line CRLF rest` is `line` when it holds no carriage return. |
| Dispatch.ParseRequestLineOf | server.py:31-33 | `verb path version` parses back to that verb and path. |
| Dispatch.RequestLineRoundTrip | server.py:30-33 | A request whose first line is `verb path version` is read back as that verb and path, whatever follows. |
| Dispatch.Routed | server.py:29-33 | A request whose first line is `verb path version` is routed by exactly that verb and path, whatever follows. |
| Dispatch.RoutesGet | server.py:36-37 | A GET request goes to the GET handler with its path. A fault from that handler becomes 500. |
| Dispatch.RoutesPost | server.py:40-41 | A POST request goes to the POST handler with all lines of the buffer and the buffer itself. |
| Dispatch.RoutesOther | server.py:43-44 | Every other method gets 405 "Method Not Allowed", whatever the path and the rest of the request. |
| Dispatch.MissingFileIsNotFound | server.py:59-72 | `GET /<name>` for a file that does not exist gets 404 with `<h1>File Not Found</h1>` as `text/html`. |
| Dispatch.StoredFileIsServed | server.py:36-70 | `GET /<name>` for a stored file gets 200 with exactly that file's bytes and stores nothing. |
| Dispatch.PostedJsonIsStored | server.py:40-103 | Take a POST where the path and version hold no space or carriage return, the request line does not mention `Content-Length`, and the first header declares the JSON body's exact byte length. Every header line must be non-empty and free of carriage returns. When the whole request arrives in the first read, so that it is at most 1024 bytes, such a request gets 201 with no extra read. The stored file parses back to the posted value when the JSON library reads back what it writes. This holds as written for ASCII bodies, and with the byte count for all bodies. |
| Dispatch.PostedNonAsciiBodyOverReads | server.py:40-87 | Take a POST under the same conditions as `Dispatch.PostedJsonIsStored`, with a body that is not ASCII. As written, it gets an extra read of at least one byte, although the whole body has arrived. |

## Left out

- The listener loop: binding, `accept`, one daemon thread per connection (server.py:144-155). This is I/O and concurrency.
- `recv` and `sendall`. The first read is given as its decoded text, or as absent when its bytes are not UTF-8. The 1024-byte cap on that read is not modelled. The one extra read is `recv(n)` returning decoded text, or absent when the call raises or its bytes are not UTF-8. Every such failure gives 400, whatever its cause: a size too large for the platform's `ssize_t`, a buffer that cannot be allocated, or a socket error. Which of these happens is not modelled, and a short read is not told apart from a full one.
- Closing the connection (the `finally` at server.py:50-51) and a failed `send_response` inside a handler's `try`. Both are socket I/O.
- Creating `uploads/` at start-up (server.py:18-19). Writing the upload file is the `Upload` record in the outcome; an `open` or `write` failure, which would also give 400, is not modelled.
- `json.loads`, `json.dump` and `json.dumps` are foreign library calls. Parsing is an oracle returning an `Option` and dumping is an oracle function. The two envelopes are written out as the fixed strings `json.dumps` prints for them.
- `mimetypes.guess_type` is an oracle from path to an optional type.
- The clock (`datetime.now` and `utcnow`) and `random.choices` are parameters: the formatted stamp, the six letters and the `Date` text. Their formatting is not modelled.
- `print` logging.
- Text.ParseInt: does not accept the non-ASCII Unicode decimal digits that Python's `int()` also accepts, because the model treats only ASCII digits as digits.
- Text.ParseInt: does not model the limit of 4300 digits that Python 3.11 and later put on `int()` of a string. Behind the 1024-byte first read such a field could not arrive, but the model does not keep that cap.
- Get.HandleGet: an entry that cannot be opened (for example, no read permission) is modelled as a fault, which the dispatcher answers with 500. The reason the operating system gives is not modelled.
- No defence against `..` in GET paths. The code has none, so the model has none either.

## Findings

| source | as written | input that shows it | evidently intended | confidence | as-written member | corrected member |
|---|---|---|---|---|---|---|
| server.py:86-87 | `len(body)` counts decoded characters, but `Content-Length` counts bytes. The code compares the two and reads the difference. | `POST / HTTP/1.1`, `Content-Length: 2`, blank line, body `é` (2 bytes). The body is complete, yet `recv(1)` is issued. The client, waiting for its response, sends nothing more, so the thread blocks with no timeout. | Compare the UTF-8 byte length of the body with `Content-Length`, and read only the missing bytes. | high; not executed | Dispatch.PostedNonAsciiBodyOverReads | Dispatch.PostedJsonIsStored |

=== FILE: dispatch.dfy ===
/** The connection dispatcher (`handle_client`): one decoded read, the
    request line, and the route to GET, POST or 405, with every uncaught
    fault answered by 500. */
module Dispatch {
  import opened Results
  import opened Text
  import opened Http
  import Get
  import Post
  import Utf8

  /** The two tokens of the request line the server uses: the method (`verb`) and the path. */
  datatype RequestLine = RequestLine(verb: string, path: string)

  /** Indexing a request line with fewer than two space-separated tokens
      raises `IndexError`. */
  datatype LineFault = MissingPath

  /** The first CRLF-separated line of the buffer. */
  function FirstLine(data: string): (line: string)
    ensures !Contains(line, CRLF)
    ensures line == data || line + CRLF <= data
  {
    SplitFirst(data, CRLF);
    Split(data, CRLF)[0]
  }

  /** `line.split(" ")` indexed at 0 and 1: the method is the text before
      the first space and the path the text between the first and second
      spaces (or to the end). A line without a space fails. */
  function ParseRequestLine(line: string): (r: Result<RequestLine, LineFault>)
    ensures r.Err? <==> ' ' !in line
    ensures r.Ok? ==>
      && ' ' !in r.value.verb && ' ' !in r.value.path
      && (|| line == r.value.verb + " " + r.value.path
          || r.value.verb + " " + r.value.path + " " <= line)
  {
    var tokens := Split(line, " ");
    ContainsChar(line, ' ');
    if |tokens| < 2 then Err(MissingPath)
    else
      ContainsChar(tokens[0], ' ');
      ContainsChar(tokens[1], ' ');
      JoinFirstTwo(tokens, " ");
      Ok(RequestLine(tokens[0], tokens[1]))
  }

  /** What a connection produces when it answers: the response, the file
      written (if any) and the extra read made (if any). */
  datatype Exchange = Exchange(response: Response, upload: Option<Post.Upload>, topUp: Option<nat>)

  const MethodNotAllowed: Response := Plain(405, "Method Not Allowed")
  const InternalError: Response := Plain(500, "Internal Server Error")

  /** The route taken once the request line is read: `GET` to the GET
      handler with the path (its fault becomes 500), `POST` to the POST
      handler with all the lines of the buffer and the buffer itself, any
      other verb to 405. `rule` is how the POST handler measures the body
      it has: `Post.CountsCharacters` is the code as written. */
  function Route<J>(rule: Post.LengthRule, req: RequestLine, data: string, fs: Get.FileSystem,
                    guess: string -> Option<string>, u: Post.Uploader<J>): (r: Exchange)
    requires Post.ValidNames(u)
    ensures r.response.status in StatusReasons
    ensures r.upload.Some? ==> r.response.status == 201
    ensures r.topUp.Some? ==> r.response.status in {201, 400}
    ensures req.verb == "GET" ==>
      match Get.HandleGet(req.path, fs, guess)
      case Ok(resp) => r == Exchange(resp, None, None)
      case Err(_) => r == Exchange(InternalError, None, None)
    ensures req.verb == "POST" ==>
      var out := Post.HandlePost(rule, Split(data, CRLF), data, u);
      r == Exchange(out.response, out.upload, out.topUp)
    ensures req.verb !in {"GET", "POST"} ==> r == Exchange(MethodNotAllowed, None, None)
  {
    if req.verb == "GET" then
      match Get.HandleGet(req.path, fs, guess)
      case Ok(resp) => Exchange(resp, None, None)
      case Err(_) => Exchange(InternalError, None, None)
    else if req.verb == "POST" then
      var out := Post.HandlePost(rule, Split(data, CRLF), data, u);
      Exchange(out.response, out.upload, out.topUp)
    else Exchange(MethodNotAllowed, None, None)
  }

  /** `handle_client` after the first read. `received` is the decoded
      text of that read, `None` when its bytes are not valid UTF-8 (the
      decode raises inside the handler's `try`). An empty read closes the
      connection without an answer; a first line without a space is a
      fault answered by 500; otherwise the request is routed by its verb. */
  function HandleClient<J>(rule: Post.LengthRule, received: Option<string>, fs: Get.FileSystem,
                           guess: string -> Option<string>, u: Post.Uploader<J>)
    : (r: Option<Exchange>)
    requires Post.ValidNames(u)
    ensures r.None? <==> received == Some("")
    ensures r.Some? ==> r.value.response.status in StatusReasons
    ensures r.Some? && r.value.upload.Some? ==> r.value.response.status == 201
    ensures r.Some? && r.value.topUp.Some? ==> r.value.response.status in {201, 400}
    ensures received.None? ==> r == Some(Exchange(InternalError, None, None))
    ensures received.Some? && received.value != "" ==>
      var line := FirstLine(received.value);
      && (' ' !in line ==> r == Some(Exchange(InternalError, None, None)))
      && (' ' in line ==>
            r == Some(Route(rule, ParseRequestLine(line).value, received.value, fs, guess, u)))
  {
    match received
    case None => Some(Exchange(InternalError, None, None))
    case Some(data) =>
      if data == "" then None
      else
        match ParseRequestLine(FirstLine(data))
        case Err(_) => Some(Exchange(InternalError, None, None))
        case Ok(req) => Some(Route(rule, req, data, fs, guess, u))
  }

  /** The first line of `line + CRLF + rest` is `line` when it holds no
      carriage return. */
  lemma FirstLineOf(line: string, rest: string)
    requires '\r' !in line
    ensures FirstLine(line + CRLF + rest) == line
  {
    FirstOccurrenceAfter(line, CRLF, rest);
    var data := line + CRLF + rest;
    assert data[..|line|] == line;
  }

  /** `<verb> <path> <version>` parses back to that verb and path. */
  lemma ParseRequestLineOf(verb: string, path: string, version: string)
    requires ' ' !in verb && ' ' !in path && ' ' !in version
    ensures ParseRequestLine(verb + " " + path + " " + version) == Ok(RequestLine(verb, path))
  {
    Text.JoinThree(verb, path, version, " ");
    SplitJoin([verb, path, version], " ");
  }

  /** A request line `<verb> <path> <version>` followed by CRLF is read
      back as that verb and path, whatever follows it. */
  lemma RequestLineRoundTrip(verb: string, path: string, version: string, rest: string)
    requires ' ' !in verb && ' ' !in path && ' ' !in version
    requires '\r' !in verb && '\r' !in path && '\r' !in version
    ensures var line := verb + " " + path + " " + version;
      && FirstLine(line + CRLF + rest) == line
      && ParseRequestLine(line) == Ok(RequestLine(verb, path))
  {
    FirstLineOf(verb + " " + path + " " + version, rest);
    ParseRequestLineOf(verb, path, version);
  }

  /** A well-formed request line hands the request to `Route` with the
      verb and path it names, whatever follows it. */
  lemma Routed<J>(rule: Post.LengthRule, verb: string, path: string, version: string, rest: string, data: string,
                  fs: Get.FileSystem, guess: string -> Option<string>, u: Post.Uploader<J>)
    requires ' ' !in verb && ' ' !in path && ' ' !in version
    requires '\r' !in verb && '\r' !in path && '\r' !in version
    requires data == verb + " " + path + " " + version + CRLF + rest
    requires Post.ValidNames(u)
    ensures HandleClient(rule, Some(data), fs, guess, u) == Some(Route(rule, RequestLine(verb, path), data, fs, guess, u))
  {
    RequestLineRoundTrip(verb, path, version, rest);
    ContainsChar(verb + " " + path + " " + version, ' ');
  }

  /** `GET` goes to the GET handler with the path, whose fault becomes 500. */
  lemma RoutesGet<J>(rule: Post.LengthRule, path: string, version: string, rest: string,
                     fs: Get.FileSystem, guess: string -> Option<string>, u: Post.Uploader<J>)
    requires ' ' !in path && ' ' !in version && '\r' !in path && '\r' !in version
    requires Post.ValidNames(u)
    ensures var r := HandleClient(rule, Some("GET " + path + " " + version + CRLF + rest), fs, guess, u);
      match Get.HandleGet(path, fs, guess)
      case Ok(resp) => r == Some(Exchange(resp, None, None))
      case Err(_) => r == Some(Exchange(InternalError, None, None))
  {
    assert "GET" + " " == "GET ";
    Routed(rule, "GET", path, version, rest, "GET " + path + " " + version + CRLF + rest, fs, guess, u);
  }

  /** `POST` goes to the POST handler with all the lines of the buffer and
      the buffer itself. */
  lemma RoutesPost<J>(rule: Post.LengthRule, path: string, version: string, rest: string,
                      fs: Get.FileSystem, guess: string -> Option<string>, u: Post.Uploader<J>)
    requires ' ' !in path && ' ' !in version && '\r' !in path && '\r' !in version
    requires Post.ValidNames(u)
    ensures var data := "POST " + path + " " + version + CRLF + rest;
      var out := Post.HandlePost(rule, Split(data, CRLF), data, u);
      HandleClient(rule, Some(data), fs, guess, u) == Some(Exchange(out.response, out.upload, out.topUp))
  {
    assert "POST" + " " == "POST ";
    Routed(rule, "POST", path, version, rest, "POST " + path + " " + version + CRLF + rest, fs, guess, u);
  }

  /** Every other verb gets 405 "Method Not Allowed", whatever the path
      and the rest of the request. */
  lemma RoutesOther<J>(rule: Post.LengthRule, verb: string, path: string, version: string, rest: string,
                       fs: Get.FileSystem, guess: string -> Option<string>, u: Post.Uploader<J>)
    requires ' ' !in verb && ' ' !in path && ' ' !in version
    requires '\r' !in verb && '\r' !in path && '\r' !in version
    requires verb != "GET" && verb != "POST"
    requires Post.ValidNames(u)
    ensures HandleClient(rule, Some(verb + " " + path + " " + version + CRLF + rest), fs, guess, u)
         == Some(Exchange(MethodNotAllowed, None, None))
  {
    Routed(rule, verb, path, version, rest, verb + " " + path + " " + version + CRLF + rest, fs, guess, u);
  }

  /** `GET /<name>` (`path` is "/" + `name`) for a plain file name that is
      not on disk is answered 404 with the HTML "File Not Found" page. */
  lemma MissingFileIsNotFound<J>(rule: Post.LengthRule, path: string, name: string, version: string, rest: string,
                                 fs: Get.FileSystem, guess: string -> Option<string>, u: Post.Uploader<J>)
    requires path == "/" + name
    requires name != "" && '/' !in name && ' ' !in name && '\r' !in name
    requires ' ' !in version && '\r' !in version
    requires Get.Root + name !in fs
    requires Post.ValidNames(u)
    ensures HandleClient(rule, Some("GET " + path + " " + version + CRLF + rest), fs, guess, u)
         == Some(Exchange(Response(404, Textual(Get.NotFoundPage), "text/html", []), None, None))
  {
    Get.ResolveSimpleName(name);
    assert path != "/" by { assert |path| > 1; }
    assert Get.HandleGet(path, fs, guess) == Ok(Response(404, Textual(Get.NotFoundPage), "text/html", []));
    RoutesGet(rule, path, version, rest, fs, guess, u);
  }

  /** `GET /<name>` (`path` is "/" + `name`) for a file stored under the
      root is answered 200 with exactly the file's bytes. */
  lemma StoredFileIsServed<J>(rule: Post.LengthRule, path: string, name: string, version: string, rest: string,
                              fs: Get.FileSystem, guess: string -> Option<string>, u: Post.Uploader<J>)
    requires path == "/" + name
    requires name != "" && '/' !in name && ' ' !in name && '\r' !in name
    requires ' ' !in version && '\r' !in version
    requires Get.Root + name in fs && fs[Get.Root + name].File?
    requires Post.ValidNames(u)
    ensures var r := HandleClient(rule, Some("GET " + path + " " + version + CRLF + rest), fs, guess, u);
      && r.Some? && r.value.upload.None?
      && r.value.response.status == 200
      && r.value.response.content == Binary(fs[Get.Root + name].bytes)
  {
    Get.ServesStoredFile(name, fs, guess);
    RoutesGet(rule, path, version, rest, fs, guess, u);
  }

  /** A POST whose first header declares the body's exact byte length,
      whose body is JSON and which arrives whole in the first read (so it
      is at most 1024 bytes) is answered 201 without any extra read, and the
      stored file parses back to the posted value whenever the JSON
      library reads back what it writes. The code as written keeps this
      promise for ASCII bodies; counting bytes keeps it for all. */
  lemma PostedJsonIsStored<J>(rule: Post.LengthRule, path: string, version: string, headers: seq<string>, body: string,
                              fs: Get.FileSystem, guess: string -> Option<string>,
                              u: Post.Uploader<J>, v: J)
    requires ' ' !in path && ' ' !in version && '\r' !in path && '\r' !in version
    requires !Contains("POST " + path + " " + version, Post.ContentLengthName)
    requires |headers| >= 1 && headers[0] == "Content-Length: " + IntToString(|Utf8.Encode(body)|)
    requires forall k :: 0 <= k < |headers| ==> SafeLine(headers[k])
    requires rule == Post.CountsBytes || Utf8.AsciiText(body)
    requires u.parse(body) == Some(v) && u.parse(u.dump(v)) == Some(v)
    requires Post.ValidNames(u)
    ensures var rest := Join(headers, CRLF) + BlankLine + body;
      var r := HandleClient(rule, Some("POST " + path + " " + version + CRLF + rest), fs, guess, u);
      && r.Some? && r.value.response.status == 201 && r.value.topUp.None?
      && r.value.upload.Some? && u.parse(r.value.upload.value.text) == Some(v)
  {
    var requestLine := "POST " + path + " " + version;
    var rest := Join(headers, CRLF) + BlankLine + body;
    RequestLayout(requestLine, headers, body);
    Post.StoresDeclaredBody(rule, [requestLine] + headers, body, u, v);
    RoutesPost(rule, path, version, rest, fs, guess, u);
  }

  /** The code as written on the same request with a body that is not
      ASCII: the handler asks the socket for more bytes although the whole
      body has arrived, at least one and as many as the body has more
      bytes than characters. */
  lemma PostedNonAsciiBodyOverReads<J>(path: string, version: string, headers: seq<string>, body: string,
                                       fs: Get.FileSystem, guess: string -> Option<string>,
                                       u: Post.Uploader<J>)
    requires ' ' !in path && ' ' !in version && '\r' !in path && '\r' !in version
    requires !Contains("POST " + path + " " + version, Post.ContentLengthName)
    requires |headers| >= 1 && headers[0] == "Content-Length: " + IntToString(|Utf8.Encode(body)|)
    requires forall k :: 0 <= k < |headers| ==> SafeLine(headers[k])
    requires !Utf8.AsciiText(body)
    requires Post.ValidNames(u)
    ensures var rest := Join(headers, CRLF) + BlankLine + body;
      var r := HandleClient(Post.CountsCharacters, Some("POST " + path + " " + version + CRLF + rest), fs, guess, u);
      && r.Some? && r.value.topUp == Some(|Utf8.Encode(body)| - |body|)
      && |Utf8.Encode(body)| - |body| > 0
  {
    var requestLine := "POST " + path + " " + version;
    var rest := Join(headers, CRLF) + BlankLine + body;
    RequestLayout(requestLine, headers, body);
    Post.CompleteBodyOverReadAsWritten([requestLine] + headers, body, u);
    RoutesPost(Post.CountsCharacters, path, version, rest, fs, guess, u);
  }

  /** A request line followed by header lines, a blank line and a body is
      the CRLF-join of all those lines followed by the blank line and the
      body, and its lines are all non-empty and free of carriage returns. */
  lemma RequestLayout(requestLine: string, headers: seq<string>, body: string)
    requires SafeLine(requestLine) && |headers| >= 1
    requires forall k :: 0 <= k < |headers| ==> SafeLine(headers[k])
    ensures var lines := [requestLine] + headers;
      && (forall k :: 0 <= k < |lines| ==> SafeLine(lines[k]))
      && requestLine + CRLF + (Join(headers, CRLF) + BlankLine + body)
         == Join(lines, CRLF) + BlankLine + body
  {
    var lines := [requestLine] + headers;
    assert lines[1..] == headers;
    assert Join(lines, CRLF) == requestLine + CRLF + Join(headers, CRLF);
    Regroup(requestLine, CRLF, Join(headers, CRLF), BlankLine + body);
    forall k | 0 <= k < |lines|
      ensures SafeLine(lines[k])
    {
      if k > 0 {
        assert lines[k] == headers[k - 1];
      }
    }
  }
}

=== FILE: get.dfy ===
/** The GET handler (`handle_get`): the landing page for "/", otherwise a
    file looked up under the `resources` directory. The filesystem and the
    MIME-type guesser are parameters. */
module Get {
  import opened Results
  import opened Text
  import opened Utf8
  import opened Http

  /** What a path names on disk. `os.path.exists` is true for every kind;
      only a readable regular file can be opened. `Unreadable` stands for
      a file `open()` refuses: no read permission, or removed between the
      existence check and the open. */
  datatype Entry = File(bytes: seq<byte>) | Directory | Unreadable

  type FileSystem = map<string, Entry>

  /** `open()` on a directory raises `IsADirectoryError`, on an unreadable
      file `PermissionError` or `FileNotFoundError`; the handler does not
      catch either, so they reach the connection dispatcher. */
  datatype GetFault = IsADirectory(path: string) | CannotOpen(path: string)

  const Banner: string := "<h1>Multi-threaded HTTP Server Running</h1>"
  const NotFoundPage: string := "<h1>File Not Found</h1>"
  const FallbackType: string := "application/octet-stream"
  const Root: string := "resources/"

  predicate IsSlash(c: char) {
    c == '/'
  }

  /** `os.path.join("resources", path.strip("/"))`: the path with every
      leading and trailing slash removed, placed under the root. The
      stripped part never starts with a slash, so the join never discards
      the root. */
  function ResolvePath(path: string): (p: string)
    ensures Root <= p
    ensures var rel := p[|Root|..];
      && (rel == "" || (rel[0] != '/' && rel[|rel| - 1] != '/'))
      && exists i :: TrimmedAt(path, rel, i, IsSlash)
  {
    var rel := Trim(path, IsSlash);
    assert (Root + rel)[|Root|..] == rel;
    Root + rel
  }

  /** `os.path.basename(p)`: the text after the last slash. */
  function Basename(p: string): (b: string)
    decreases |p|
    ensures '/' !in b
    ensures |b| <= |p| && p[|p| - |b|..] == b
    ensures |b| == |p| || p[|p| - |b| - 1] == '/'
  {
    if |p| == 0 || p[|p| - 1] == '/' then ""
    else
      var b := Basename(p[..|p| - 1]) + [p[|p| - 1]];
      assert p[..|p| - 1][|p| - |b|..] + [p[|p| - 1]] == p[|p| - |b|..];
      b
  }

  /** `guess_type(p)[0] or "application/octet-stream"`: an absent or empty
      guess falls back to the generic binary type. */
  function ContentTypeFor(p: string, guess: string -> Option<string>): (t: string)
    ensures t != ""
    ensures guess(p).Some? && guess(p).value != "" ==> t == guess(p).value
    ensures guess(p).None? || guess(p).value == "" ==> t == FallbackType
  {
    match guess(p)
    case Some(g) => if g != "" then g else FallbackType
    case None => FallbackType
  }

  /** The `Content-Disposition` header a served file carries: the file is
      shown inline under its last path component, quoted. */
  function Disposition(p: string): (d: (string, string))
    ensures d.0 == "Content-Disposition"
    ensures |d.1| == |Basename(p)| + 19
    ensures d.1[..18] == "inline; filename=\"" && d.1[|d.1| - 1] == '"'
    ensures var name := d.1[18..|d.1| - 1];
      && '/' !in name && p[|p| - |name|..] == name
      && (|name| == |p| || p[|p| - |name| - 1] == '/')
  {
    var v := "inline; filename=\"" + Basename(p) + "\"";
    assert v[18..|v| - 1] == Basename(p);
    ("Content-Disposition", v)
  }

  /** The response `handle_get` sends, or the fault it raises. */
  function HandleGet(path: string, fs: FileSystem, guess: string -> Option<string>)
    : (r: Result<Response, GetFault>)
    ensures path == "/" ==> r == Ok(Response(200, Textual(Banner), "text/html", []))
    ensures r.Err? <==> path != "/" && ResolvePath(path) in fs && !fs[ResolvePath(path)].File?
    ensures r.Err? ==> r.error == (if fs[ResolvePath(path)].Directory? then IsADirectory(ResolvePath(path))
                                   else CannotOpen(ResolvePath(path)))
    ensures r.Ok? ==> r.value.status in {200, 404}
    ensures r.Ok? && r.value.status == 404 <==> path != "/" && ResolvePath(path) !in fs
    ensures r.Ok? && r.value.status == 404 ==>
      r.value == Response(404, Textual(NotFoundPage), "text/html", [])
    ensures r.Ok? && r.value.status == 200 && path != "/" ==>
      var p := ResolvePath(path);
      && p in fs && fs[p].File?
      && r.value.content == Binary(fs[p].bytes)
      && r.value.contentType == ContentTypeFor(p, guess)
      && r.value.extra == [Disposition(p)]
  {
    if path == "/" then
      Ok(Response(200, Textual(Banner), "text/html", []))
    else
      var p := ResolvePath(path);
      if p !in fs then
        Ok(Response(404, Textual(NotFoundPage), "text/html", []))
      else
        match fs[p]
        case Directory => Err(IsADirectory(p))
        case Unreadable => Err(CannotOpen(p))
        case File(bytes) => Ok(Response(200, Binary(bytes), ContentTypeFor(p, guess), [Disposition(p)]))
  }

  /** Requesting `/<name>` for a plain file name stored under the root
      serves exactly that file's bytes, typed by the guess for its path and
      offered under its own name. */
  lemma ServesStoredFile(name: string, fs: FileSystem, guess: string -> Option<string>)
    requires name != "" && '/' !in name
    requires Root + name in fs && fs[Root + name].File?
    ensures HandleGet("/" + name, fs, guess) ==
      Ok(Response(200, Binary(fs[Root + name].bytes), ContentTypeFor(Root + name, guess),
                  [("Content-Disposition", "inline; filename=\"" + name + "\"")]))
  {
    ResolveSimpleName(name);
    BasenameAfterSlash(Root, name);
  }

  /** `/<name>` for a plain file name resolves to that name under the
      root. */
  lemma ResolveSimpleName(name: string)
    requires name != "" && '/' !in name
    ensures ResolvePath("/" + name) == Root + name
  {
    assert IsSlash('/');
    assert All("/", IsSlash);
    TrimDropsPrefix("/", name, IsSlash);
    assert name[0] in name && name[|name| - 1] in name;
    TrimUntouched(name, IsSlash);
  }

  /** The base name of `dir + name` is `name` when `dir` ends in a slash
      and `name` has none. */
  lemma {:induction false} BasenameAfterSlash(dir: string, name: string)
    requires |dir| > 0 && dir[|dir| - 1] == '/' && '/' !in name
    ensures Basename(dir + name) == name
    decreases |name|
  {
    var p := dir + name;
    if |name| > 0 {
      assert p[..|p| - 1] == dir + name[..|name| - 1];
      assert name[|name| - 1] in name;
      BasenameAfterSlash(dir, name[..|name| - 1]);
      assert name[..|name| - 1] + [name[|name| - 1]] == name;
    } else {
      assert p == dir;
    }
  }
}

=== FILE: headers.dfy ===
/** Reading an integer header value the way the POST handler does it:
    `int(line.split(":")[1].strip())`. */
module Headers {
  import opened Results
  import opened Text

  /** Why a header value could not be read: no colon in the line
      (Python's `IndexError`) or a field that is not an integer
      (`ValueError`). */
  datatype ValueFault = NoColon | NotAnInteger

  /** The line is `name:field` or starts with `name:field:`, where the
      name and the field hold no colon. */
  predicate FieldAt(line: string, name: string, field: string) {
    && ':' !in name && ':' !in field
    && (line == name + ":" + field || name + ":" + field + ":" <= line)
  }

  /** A line has at most one name and field. */
  lemma FieldAtUnique(line: string, name: string, field: string, name': string, field': string)
    requires FieldAt(line, name, field) && FieldAt(line, name', field')
    ensures name == name' && field == field'
  {
    ColonFreePrefixUnique(line, name, name');
    var rest := line[|name| + 1..];
    assert rest == field || field + ":" <= rest;
    assert rest == field' || field' + ":" <= rest;
    ColonFreePrefixUnique(rest, field, field');
  }

  /** Colon-free text that is either all of `s` or followed by a colon in
      `s` is the text of `s` up to its first colon, so there is only one. */
  lemma ColonFreePrefixUnique(s: string, a: string, b: string)
    requires ':' !in a && ':' !in b
    requires s == a || a + ":" <= s
    requires s == b || b + ":" <= s
    ensures a == b
  {
    assert a == s[..|a|] && b == s[..|b|];
    assert |a| == |s| || s[|a|] == ':';
    assert |b| == |s| || s[|b|] == ':';
    assert forall i :: 0 <= i < |a| ==> s[i] != ':';
    assert forall i :: 0 <= i < |b| ==> s[i] != ':';
  }

  /** Without a colon there is no name and field. */
  lemma NoColonNoField(line: string)
    requires ':' !in line
    ensures forall name, field :: !FieldAt(line, name, field)
  {
    forall name, field
      ensures !FieldAt(line, name, field)
    {
      assert (name + ":" + field)[|name|] == ':';
      assert (name + ":" + field + ":")[|name|] == ':';
    }
  }

  /** The first two pieces of a colon split are the name and the field. */
  lemma SplitFields(line: string)
    requires ':' in line
    ensures var parts := Split(line, ":");
      |parts| >= 2 && FieldAt(line, parts[0], parts[1])
  {
    var parts := Split(line, ":");
    ContainsChar(line, ':');
    ContainsChar(parts[0], ':');
    ContainsChar(parts[1], ':');
    JoinFirstTwo(parts, ":");
  }

  /** The integer between the first and second colons of `line`, with the
      surrounding whitespace stripped. */
  function IntegerField(line: string): (r: Result<int, ValueFault>)
    ensures r == Err(NoColon) <==> ':' !in line
    ensures r.Ok? ==> exists name, field ::
      FieldAt(line, name, field) && ParseInt(Strip(field)) == Some(r.value)
    ensures forall name, field :: FieldAt(line, name, field) ==>
      r == match ParseInt(Strip(field))
           case None => Err(NotAnInteger)
           case Some(n) => Ok(n)
  {
    var parts := Split(line, ":");
    ContainsChar(line, ':');
    if |parts| < 2 then
      NoColonNoField(line);
      Err(NoColon)
    else
      SplitFields(line);
      assert forall name, field :: FieldAt(line, name, field) ==> field == parts[1] by {
        forall name, field | FieldAt(line, name, field)
          ensures field == parts[1]
        {
          FieldAtUnique(line, name, field, parts[0], parts[1]);
        }
      }
      match ParseInt(Strip(parts[1]))
      case None => Err(NotAnInteger)
      case Some(n) => Ok(n)
  }

  /** A header line written as `Name: <n>` reads back as `n`, provided the
      name has no colon: the writer's rendering and the reader's parse agree. */
  lemma IntegerFieldRoundTrip(name: string, n: int)
    requires ':' !in name
    ensures IntegerField(name + ": " + IntToString(n)) == Ok(n)
  {
    var digits := IntToString(n);
    var field := " " + digits;
    assert ':' !in field;
    var line := name + ": " + digits;
    assert line == Join([name, field], ":");
    SplitJoin([name, field], ":");
    assert Split(line, ":") == [name, field];
    assert !IsSpace(digits[0]) && !IsSpace(digits[|digits| - 1]);
    assert IsSpace(' ');
    TrimDropsPrefix(" ", digits, IsSpace);
    assert field == " " + digits;
    TrimUntouched(digits, IsSpace);
    IntRoundTrip(n);
  }
}

=== FILE: http.dfy ===
/** The response writer (`send_response`): the reason-phrase table, the
    fixed header list, and the bytes put on the wire. The `Date` header's
    clock reading is a parameter. */
module Http {
  import opened Results
  import opened Text
  import opened Utf8
  import Headers

  /** What a handler hands to the writer: text, which is UTF-8 encoded on
      the way out, or bytes sent as they are (the `binary` flag). */
  datatype Content = Textual(text: string) | Binary(bytes: seq<byte>)

  /** A response descriptor: status code, content, content type (without
      the charset suffix) and the extra headers in insertion order. */
  datatype Response = Response(status: int, content: Content, contentType: string,
                               extra: seq<(string, string)>)

  /** The writer's defaults: `text/plain`, no extra headers, text content. */
  function Plain(status: int, text: string): Response {
    Response(status, Textual(text), "text/plain", [])
  }

  const StatusReasons: map<int, string> := map[
    200 := "OK",
    201 := "Created",
    400 := "Bad Request",
    404 := "Not Found",
    405 := "Method Not Allowed",
    500 := "Internal Server Error"
  ]

  /** The reason phrase of the status line; codes missing from the table
      fall back to "OK". */
  function Reason(code: int): (r: string)
    ensures code == 200 ==> r == "OK"
    ensures code == 201 ==> r == "Created"
    ensures code == 400 ==> r == "Bad Request"
    ensures code == 404 ==> r == "Not Found"
    ensures code == 405 ==> r == "Method Not Allowed"
    ensures code == 500 ==> r == "Internal Server Error"
    ensures code !in {200, 201, 400, 404, 405, 500} ==> r == "OK"
  {
    if code in StatusReasons then StatusReasons[code] else "OK"
  }

  /** The bytes sent after the blank line. */
  function Payload(c: Content): seq<byte> {
    match c
    case Textual(text) => Encode(text)
    case Binary(bytes) => bytes
  }

  function ExtraLines(extra: seq<(string, string)>): (lines: seq<string>)
    ensures |lines| == |extra|
    ensures forall k :: 0 <= k < |extra| ==> lines[k] == extra[k].0 + ": " + extra[k].1
  {
    if |extra| == 0 then [] else [extra[0].0 + ": " + extra[0].1] + ExtraLines(extra[1..])
  }

  /** The status line and the six fixed headers in their order, then one
      line per extra header in insertion order. Every line is non-empty and
      free of carriage returns as long as the date, the content type and
      the extra headers are. */
  function HeaderLines(r: Response, date: string): (lines: seq<string>)
    ensures |lines| == 7 + |r.extra|
    ensures lines[..7] == FixedLines(r, date)
    ensures forall k :: 0 <= k < |r.extra| ==> lines[7 + k] == r.extra[k].0 + ": " + r.extra[k].1
    ensures SafeFields(r, date) ==> forall k :: 0 <= k < |lines| ==> SafeLine(lines[k])
  {
    var fixed := FixedLines(r, date);
    assert SafeFields(r, date) ==> forall k :: 0 <= k < |fixed| ==> SafeLine(fixed[k]);
    if SafeFields(r, date) then
      AppendedLinesSafe(fixed, r.extra);
      fixed + ExtraLines(r.extra)
    else
      fixed + ExtraLines(r.extra)
  }

  /** Safe lines followed by the lines of CR-free extra headers are all
      safe. */
  lemma AppendedLinesSafe(fixed: seq<string>, extra: seq<(string, string)>)
    requires forall k :: 0 <= k < |fixed| ==> SafeLine(fixed[k])
    requires forall k :: 0 <= k < |extra| ==> '\r' !in extra[k].0 && '\r' !in extra[k].1
    ensures var lines := fixed + ExtraLines(extra);
      forall k :: 0 <= k < |lines| ==> SafeLine(lines[k])
  {
    var lines := fixed + ExtraLines(extra);
    forall k | 0 <= k < |lines|
      ensures SafeLine(lines[k])
    {
      if k >= |fixed| {
        var e := extra[k - |fixed|];
        assert lines[k] == e.0 + ": " + e.1;
      } else {
        assert lines[k] == fixed[k];
      }
    }
  }

  /** `HTTP/1.1 <code> <reason>`: the code's decimal digits sit between
      the first two spaces, and the rest of the line is the reason phrase
      the table gives for it. */
  function StatusLine(code: int): (line: string)
    ensures var k := 9 + |IntToString(code)|;
      && |line| == k + 1 + |Reason(code)|
      && line[..9] == "HTTP/1.1 "
      && line[9..k] == IntToString(code) && ' ' !in line[9..k]
      && line[k] == ' '
      && line[k + 1..] == Reason(code)
  {
    var digits := IntToString(code);
    NumberHasNoCR(code);
    StatusLineLayout(digits, Reason(code));
    "HTTP/1.1 " + digits + " " + Reason(code)
  }

  lemma StatusLineLayout(digits: string, reason: string)
    ensures var line := "HTTP/1.1 " + digits + " " + reason;
      && |line| == 10 + |digits| + |reason|
      && line[..9] == "HTTP/1.1 " && line[9..9 + |digits|] == digits
      && line[9 + |digits|] == ' ' && line[10 + |digits|..] == reason
  {
    var line := "HTTP/1.1 " + digits + " " + reason;
    assert line[9..9 + |digits|] == digits;
    assert line[10 + |digits|..] == reason;
  }

  /** `line` is a header line whose name, the text before its first colon,
      is `name`. */
  predicate Named(line: string, name: string) {
    ':' !in name && name + ": " <= line
  }

  /** `Date: <date>`, with the date verbatim. */
  function DateLine(date: string): (line: string)
    ensures Named(line, "Date") && line[6..] == date
    ensures '\r' !in date ==> SafeLine(line)
  {
    "Date: " + date
  }

  /** `Content-Type: <type>; charset=utf-8`: the type verbatim between the
      name and the charset suffix. */
  function ContentTypeLine(contentType: string): (line: string)
    ensures Named(line, "Content-Type")
    ensures |line| == |contentType| + 29
    ensures line[14..|line| - 15] == contentType && line[|line| - 15..] == "; charset=utf-8"
    ensures '\r' !in contentType ==> SafeLine(line)
  {
    var line := "Content-Type: " + contentType + "; charset=utf-8";
    assert line[14..|line| - 15] == contentType;
    line
  }

  /** `Content-Length: <n>`, with the number free of carriage returns. */
  function ContentLengthLine(n: int): (line: string)
    ensures Named(line, "Content-Length") && line[16..] == IntToString(n)
    ensures SafeLine(line)
  {
    NumberHasNoCR(n);
    var line := "Content-Length: " + IntToString(n);
    assert line[..16] == "Content-Length: ";
    line
  }

  /** The status line and the six headers every response carries, each
      built by its own line function. Every line is non-empty and free of
      carriage returns as long as the date and the content type are. */
  function FixedLines(r: Response, date: string): (lines: seq<string>)
    ensures |lines| == 7
    ensures lines[0] == StatusLine(r.status) && lines[1] == ServerLine
    ensures lines[2] == DateLine(date) && lines[3] == ContentTypeLine(r.contentType)
    ensures lines[4] == ContentLengthLine(|Payload(r.content)|)
    ensures lines[5] == ConnectionLine && lines[6] == KeepAliveLine
    ensures '\r' !in date && '\r' !in r.contentType ==> forall k :: 0 <= k < 7 ==> SafeLine(lines[k])
  {
    StatusLineSafe(r.status);
    ConstantLinesSafe();
    [ StatusLine(r.status),
      ServerLine,
      DateLine(date),
      ContentTypeLine(r.contentType),
      ContentLengthLine(|Payload(r.content)|),
      ConnectionLine,
      KeepAliveLine
    ]
  }

  /** What a client reads back from the fixed lines: the status code and
      its reason phrase from the status line; the header names Server,
      Date, Content-Type, Content-Length, Connection and Keep-Alive in that
      order; the date verbatim; and the content type verbatim followed by
      `; charset=utf-8`. */
  lemma FixedLinesLayout(r: Response, date: string)
    ensures var lines := FixedLines(r, date);
      var k := 9 + |IntToString(r.status)|;
      && |lines[0]| == k + 1 + |Reason(r.status)|
      && lines[0][..9] == "HTTP/1.1 " && ' ' !in lines[0][9..k]
      && ParseInt(lines[0][9..k]) == Some(r.status)
      && lines[0][k] == ' ' && lines[0][k + 1..] == Reason(r.status)
    ensures var lines := FixedLines(r, date);
      && Named(lines[1], "Server") && Named(lines[2], "Date") && Named(lines[3], "Content-Type")
      && Named(lines[4], "Content-Length") && Named(lines[5], "Connection") && Named(lines[6], "Keep-Alive")
    ensures var lines := FixedLines(r, date);
      && lines[2][6..] == date
      && |lines[3]| == |r.contentType| + 29
      && lines[3][14..|lines[3]| - 15] == r.contentType
      && lines[3][|lines[3]| - 15..] == "; charset=utf-8"
  {
    ConstantLinesNamed();
    IntRoundTrip(r.status);
  }

  const ServerLine: string := "Server: Multi-threaded HTTP Server"
  const ConnectionLine: string := "Connection: keep-alive"
  const KeepAliveLine: string := "Keep-Alive: timeout=30, max=100"

  /** The header block: the lines, plus a final "\r\n" entry, joined with
      CRLF, which ends the lines with exactly one blank line. */
  function Head(r: Response, date: string): (h: string)
    ensures h == Join(HeaderLines(r, date), CRLF) + BlankLine
  {
    var lines := HeaderLines(r, date);
    JoinSnoc(lines, "\r\n", CRLF);
    assert CRLF + "\r\n" == BlankLine;
    Join(lines + ["\r\n"], CRLF)
  }

  /** What `send_response` passes to `sendall`: the encoded header block,
      which ends in exactly one blank line, followed by the content bytes
      verbatim. */
  function Serialize(r: Response, date: string): (bs: seq<byte>)
    ensures |bs| >= |Payload(r.content)|
    ensures bs[|bs| - |Payload(r.content)|..] == Payload(r.content)
    ensures bs[..|bs| - |Payload(r.content)|] == Encode(Join(HeaderLines(r, date), CRLF) + "\r\n\r\n")
  {
    Encode(Head(r, date)) + Payload(r.content)
  }

  /** Header fields that cannot break the line structure: no carriage
      return in the date, the content type or any extra header. */
  predicate SafeFields(r: Response, date: string) {
    && '\r' !in date
    && '\r' !in r.contentType
    && forall k :: 0 <= k < |r.extra| ==> '\r' !in r.extra[k].0 && '\r' !in r.extra[k].1
  }

  /** A number's decimal rendering holds no carriage return and no space. */
  lemma NumberHasNoCR(n: int)
    ensures '\r' !in IntToString(n) && ' ' !in IntToString(n)
  {
    var s := IntToString(n);
    assert forall i :: 0 <= i < |s| ==> s[i] == '-' || IsDigit(s[i]);
  }

  lemma ReasonHasNoCR(code: int)
    ensures Reason(code) != "" && '\r' !in Reason(code)
  {
  }

  /** A header line that cannot break the framing: non-empty and free of
      carriage returns. */
  predicate SafeLine(line: string) {
    line != "" && '\r' !in line
  }

  lemma StatusLineSafe(code: int)
    ensures SafeLine(StatusLine(code))
  {
    NumberHasNoCR(code);
    ReasonHasNoCR(code);
  }

  lemma NamedLineSafe(name: string, value: string)
    requires SafeLine(name) && '\r' !in value
    ensures SafeLine(name + value)
  {
  }

  lemma ConstantLinesNamed()
    ensures Named(ServerLine, "Server") && Named(ConnectionLine, "Connection")
    ensures Named(KeepAliveLine, "Keep-Alive")
  {
    ServerLineNamed();
    ConnectionLineNamed();
    KeepAliveLineNamed();
  }

  lemma ServerLineNamed() ensures Named(ServerLine, "Server") { assert ServerLine[..8] == "Server: "; }
  lemma ConnectionLineNamed() ensures Named(ConnectionLine, "Connection") { assert ConnectionLine[..12] == "Connection: "; }
  lemma KeepAliveLineNamed() ensures Named(KeepAliveLine, "Keep-Alive") { assert KeepAliveLine[..12] == "Keep-Alive: "; }

  /** The three constant lines are checked one literal per lemma: checking
      them together costs the solver several times as much. */
  lemma ConstantLinesSafe()
    ensures SafeLine(ServerLine) && SafeLine(ConnectionLine) && SafeLine(KeepAliveLine)
  {
    ServerLineSafe();
    ConnectionLineSafe();
    KeepAliveLineSafe();
  }

  lemma ServerLineSafe() ensures SafeLine(ServerLine) {}
  lemma ConnectionLineSafe() ensures SafeLine(ConnectionLine) {}
  lemma KeepAliveLineSafe() ensures SafeLine(KeepAliveLine) {}

  const BlankLine: string := "\r\n\r\n"

  /** No blank line starts inside a CRLF-join of non-empty lines free of
      carriage returns, whatever follows the join's closing blank line. */
  lemma {:induction false} NoBlankLineInside(lines: seq<string>, t: string, j: nat)
    requires forall k :: 0 <= k < |lines| ==> SafeLine(lines[k])
    requires j < |Join(lines, CRLF)|
    ensures !OccursAt(Join(lines, CRLF) + BlankLine + t, BlankLine, j)
  {
    var s := Join(lines, CRLF) + BlankLine + t;
    var x := lines[0];
    if j < |x| {
      JoinStartsWithFirst(lines, CRLF);
      assert s[j] == x[j];
      if j + 4 <= |s| {
        assert s[j..j + 4][0] == s[j];
      }
    } else {
      var rest := Join(lines[1..], CRLF);
      assert Join(lines, CRLF) == x + CRLF + rest;
      var tail := rest + BlankLine + t;
      assert s == x + CRLF + tail;
      if j == |x| {
        JoinStartsWithFirst(lines[1..], CRLF);
        assert s[j + 2] == lines[1][0];
        if j + 4 <= |s| {
          assert s[j..j + 4][2] == s[j + 2];
        }
      } else if j == |x| + 1 {
        if j + 4 <= |s| {
          assert s[j..j + 4][0] == '\n';
        }
      } else {
        var j' := j - |x| - 2;
        NoBlankLineInside(lines[1..], t, j');
        assert s[|x| + 2..] == tail;
        if j + 4 <= |s| {
          assert s[j..j + 4] == tail[j'..j' + 4];
        }
      }
    }
  }

  /** The first blank line of `Join(lines, CRLF) + BlankLine + t` is the one
      right after the lines. */
  lemma FirstBlankLine(lines: seq<string>, t: string)
    requires forall k :: 0 <= k < |lines| ==> SafeLine(lines[k])
    ensures Find(Join(lines, CRLF) + BlankLine + t, BlankLine) == Some(|Join(lines, CRLF)|)
  {
    var h := Join(lines, CRLF);
    var s := h + BlankLine + t;
    assert s[|h|..|h| + 4] == BlankLine;
    forall j | 0 <= j < |h|
      ensures !OccursAt(s, BlankLine, j)
    {
      NoBlankLineInside(lines, t, j);
    }
    assert OccursAt(s, BlankLine, |h|);
    assert Contains(s, BlankLine);
    var r := Find(s, BlankLine);
  }

  /** The `Content-Length` line, read the way this server reads request
      headers, gives the number of content bytes. */
  lemma ContentLengthReadsBack(r: Response, date: string)
    ensures Headers.IntegerField(HeaderLines(r, date)[4]) == Ok(|Payload(r.content)|)
  {
    var n := |Payload(r.content)|;
    var line := "Content-Length: " + IntToString(n);
    assert HeaderLines(r, date)[4] == line by {
      assert HeaderLines(r, date)[4] == FixedLines(r, date)[4];
    }
    assert line == "Content-Length" + ": " + IntToString(n);
    Headers.IntegerFieldRoundTrip("Content-Length", n);
  }

  /** Splitting the header block on CRLF gives back the header lines
      followed by the two empty pieces of the terminator. */
  lemma HeadSplitsIntoLines(r: Response, date: string)
    requires SafeFields(r, date)
    ensures Split(Head(r, date), CRLF) == HeaderLines(r, date) + ["", ""]
  {
    var lines := HeaderLines(r, date);
    var parts := lines + ["", ""];
    JoinSnoc(lines, "\r\n", CRLF);
    JoinSnoc(lines, "", CRLF);
    JoinSnoc(lines + [""], "", CRLF);
    assert parts == (lines + [""]) + [""];
    assert Head(r, date) == Join(parts, CRLF);
    forall k | 0 <= k < |parts|
      ensures CRLF[0] !in parts[k]
    {
      if k < |lines| {
        assert parts[k] == lines[k];
      }
    }
    SplitJoin(parts, CRLF);
  }

  /** For text content, the text after the first blank line of the
      response is exactly the content, and the bytes sent are the encoding
      of header block and text together. */
  lemma TextAfterBlankLine(r: Response, date: string)
    requires SafeFields(r, date) && r.content.Textual?
    ensures Encode(Head(r, date) + r.content.text) == Serialize(r, date)
    ensures After(Head(r, date) + r.content.text, BlankLine) == Some(r.content.text)
  {
    TextSerializes(r, date);
    TextFollowsBlankLine(r, date);
  }

  lemma TextSerializes(r: Response, date: string)
    requires r.content.Textual?
    ensures Encode(Head(r, date) + r.content.text) == Serialize(r, date)
  {
    EncodeAppend(Head(r, date), r.content.text);
  }

  lemma TextFollowsBlankLine(r: Response, date: string)
    requires SafeFields(r, date) && r.content.Textual?
    ensures After(Head(r, date) + r.content.text, BlankLine) == Some(r.content.text)
  {
    var lines := HeaderLines(r, date);
    var text := r.content.text;
    FirstBlankLine(lines, text);
    var s := Join(lines, CRLF) + BlankLine + text;
    assert s[|Join(lines, CRLF)| + |BlankLine|..] == text;
  }

  /** The blank line as it goes on the wire. */
  const WireBlankLine: seq<byte> := [13, 10, 13, 10]

  predicate WireBlankLineAt(bs: seq<byte>, j: nat) {
    j + 4 <= |bs| && bs[j..j + 4] == WireBlankLine
  }

  lemma EncodeBlankLine()
    ensures Encode(BlankLine) == WireBlankLine
    ensures Encode(CRLF) == [13, 10]
  {
    assert Encode(BlankLine) == EncodeChar('\r') + Encode("\n\r\n");
    assert Encode("\n\r\n") == EncodeChar('\n') + Encode("\r\n");
    assert Encode(CRLF) == EncodeChar('\r') + Encode("\n");
    assert Encode("\n") == EncodeChar('\n') + Encode("");
  }

  /** Text without a carriage return encodes to bytes without 13: an ASCII
      character is its own byte, and every byte of a wider character is at
      least 0x80. */
  lemma {:induction false} EncodeNoCR(s: string)
    requires '\r' !in s
    ensures forall k :: 0 <= k < |Encode(s)| ==> Encode(s)[k] != 13
  {
    if |s| > 0 {
      EncodeNoCR(s[1..]);
      assert s[0] != '\r';
      assert Encode(s) == EncodeChar(s[0]) + Encode(s[1..]);
    }
  }

  /** The encoded CRLF-join of safe lines starts with a byte other than 13. */
  lemma FirstWireByte(lines: seq<string>)
    requires |lines| >= 1
    requires forall k :: 0 <= k < |lines| ==> SafeLine(lines[k])
    ensures |Encode(Join(lines, CRLF))| > 0 && Encode(Join(lines, CRLF))[0] != 13
  {
    var x := lines[0];
    EncodeNoCR(x);
    if |lines| > 1 {
      var rest := CRLF + Join(lines[1..], CRLF);
      assert Join(lines, CRLF) == x + rest;
      EncodeAppend(x, rest);
    }
  }

  /** Peeling the first line off the encoded join. */
  lemma WireLayout(lines: seq<string>, p: seq<byte>)
    requires |lines| >= 2
    ensures Encode(Join(lines, CRLF)) + WireBlankLine + p
         == Encode(lines[0]) + [13, 10] + (Encode(Join(lines[1..], CRLF)) + WireBlankLine + p)
  {
    EncodeJoinSplit(lines);
    ByteRegroup(Encode(Join(lines, CRLF)), Encode(lines[0]), Encode(Join(lines[1..], CRLF)), WireBlankLine, p);
  }

  lemma EncodeJoinSplit(lines: seq<string>)
    requires |lines| >= 2
    ensures Encode(Join(lines, CRLF)) == Encode(lines[0]) + ([13, 10] + Encode(Join(lines[1..], CRLF)))
  {
    var x := lines[0];
    var rest := Join(lines[1..], CRLF);
    calc {
      Encode(Join(lines, CRLF));
      { assert Join(lines, CRLF) == x + (CRLF + rest); }
      Encode(x + (CRLF + rest));
      { EncodeAppend(x, CRLF + rest); }
      Encode(x) + Encode(CRLF + rest);
      { EncodeAppend(CRLF, rest); EncodeBlankLine(); }
      Encode(x) + ([13, 10] + Encode(rest));
    }
  }

  lemma ByteRegroup(whole: seq<byte>, a: seq<byte>, b: seq<byte>, w: seq<byte>, p: seq<byte>)
    requires whole == a + ([13, 10] + b)
    ensures whole + w + p == a + [13, 10] + (b + w + p)
  {
  }

  /** The encoded CRLF-join of safe lines, followed by the wire blank line
      and any payload, holds no wire blank line before the one after the
      lines. */
  lemma {:induction false} NoWireBlankLineInside(lines: seq<string>, p: seq<byte>, j: nat)
    requires forall k :: 0 <= k < |lines| ==> SafeLine(lines[k])
    requires j < |Encode(Join(lines, CRLF))|
    ensures !WireBlankLineAt(Encode(Join(lines, CRLF)) + WireBlankLine + p, j)
  {
    var bs := Encode(Join(lines, CRLF)) + WireBlankLine + p;
    var ex := Encode(lines[0]);
    EncodeNoCR(lines[0]);
    if |lines| == 1 {
      assert bs[j] == ex[j];
    } else {
      var tail := Encode(Join(lines[1..], CRLF)) + WireBlankLine + p;
      WireLayout(lines, p);
      if j < |ex| + 2 {
        FirstWireByte(lines[1..]);
        NoWireBlankLineAcross(ex, tail, j);
      } else {
        NoWireBlankLineInside(lines[1..], p, j - |ex| - 2);
        WireBlankLineShift(ex, tail, j);
      }
    }
  }

  /** A wire blank line cannot start inside a run of bytes without 13 or
      at the CRLF that separates it from bytes starting with something
      other than 13. */
  lemma NoWireBlankLineAcross(ex: seq<byte>, tail: seq<byte>, j: nat)
    requires forall k :: 0 <= k < |ex| ==> ex[k] != 13
    requires |tail| > 0 && tail[0] != 13
    requires j < |ex| + 2
    ensures !WireBlankLineAt(ex + [13, 10] + tail, j)
  {
    var bs := ex + [13, 10] + tail;
    if j < |ex| {
      assert bs[j] == ex[j];
    } else if j == |ex| {
      assert bs[j + 2] == tail[0];
    } else {
      assert bs[j] == 10;
    }
  }

  /** Past the CRLF, a wire blank line in `ex + CRLF + tail` is one in `tail`. */
  lemma WireBlankLineShift(ex: seq<byte>, tail: seq<byte>, j: nat)
    requires j >= |ex| + 2
    ensures WireBlankLineAt(ex + [13, 10] + tail, j) == WireBlankLineAt(tail, j - |ex| - 2)
  {
    var bs := ex + [13, 10] + tail;
    var j' := j - |ex| - 2;
    if j + 4 <= |bs| {
      assert bs[j..j + 4] == tail[j'..j' + 4];
    }
  }

  /** The bytes sent, for any content: the first CRLF CRLF comes right
      after the encoded header lines, and everything after it is exactly
      the content bytes that `Content-Length` counts. */
  lemma WireFraming(r: Response, date: string)
    requires SafeFields(r, date)
    ensures var bs := Serialize(r, date);
      var h := |Encode(Join(HeaderLines(r, date), CRLF))|;
      && WireBlankLineAt(bs, h)
      && (forall j :: 0 <= j < h ==> !WireBlankLineAt(bs, j))
      && bs[h + 4..] == Payload(r.content)
  {
    var lines := HeaderLines(r, date);
    var p := Payload(r.content);
    var eh := Encode(Join(lines, CRLF));
    EncodeAppend(Join(lines, CRLF), BlankLine);
    EncodeBlankLine();
    var bs := eh + WireBlankLine + p;
    assert Serialize(r, date) == bs;
    assert bs[|eh|..|eh| + 4] == WireBlankLine;
    forall j | 0 <= j < |eh|
      ensures !WireBlankLineAt(bs, j)
    {
      NoWireBlankLineInside(lines, p, j);
    }
    assert bs[|eh| + 4..] == p;
  }

  /** The framing a client relies on. With header fields free of carriage
      returns: splitting the header block on CRLF gives back the header
      lines followed by the two empty pieces of the terminator; the
      `Content-Length` line, read the way this server reads request
      headers, gives the number of content bytes; for any content, the
      first CRLF CRLF of the bytes sent ends the encoded header lines and
      is followed by exactly those content bytes; and for text content,
      the text after the first blank line of the response is exactly the
      content. */
  lemma ResponseFraming(r: Response, date: string)
    requires SafeFields(r, date)
    ensures Split(Head(r, date), CRLF) == HeaderLines(r, date) + ["", ""]
    ensures Headers.IntegerField(HeaderLines(r, date)[4]) == Ok(|Payload(r.content)|)
    ensures var bs := Serialize(r, date);
      var h := |Encode(Join(HeaderLines(r, date), CRLF))|;
      && WireBlankLineAt(bs, h)
      && (forall j :: 0 <= j < h ==> !WireBlankLineAt(bs, j))
      && bs[h + 4..] == Payload(r.content)
    ensures r.content.Textual? ==>
      && Encode(Head(r, date) + r.content.text) == Serialize(r, date)
      && After(Head(r, date) + r.content.text, BlankLine) == Some(r.content.text)
  {
    HeadSplitsIntoLines(r, date);
    ContentLengthReadsBack(r, date);
    WireFraming(r, date);
    if r.content.Textual? {
      TextAfterBlankLine(r, date);
    }
  }
}

=== FILE: post.dfy ===
/** The POST handler (`handle_post`): find the declared body length, take
    the body after the first blank line, top it up with one more read when
    it is short, parse it as JSON and store it under a generated name. The
    socket read, the JSON library, the clock and the random letters are
    parameters. */
module Post {
  import opened Results
  import opened Text
  import opened Utf8
  import opened Http
  import Headers

  /** Why `handle_post` answered 400: the `Content-Length` line could not
      be read, the request has no blank line, the extra read raised or its
      bytes were not valid UTF-8, or the body is not JSON. */
  datatype PostFault =
    | BadContentLength(fault: Headers.ValueFault)
    | NoBlankLine
    | TopUpFailed
    | InvalidJson

  /** The outside world of one POST: `recv(n)` is the decoded text of the
      one extra socket read of `n` bytes, `None` when the read raises (a
      size that does not fit the platform's `ssize_t`, a buffer that
      cannot be allocated, a socket error) or its bytes are not valid
      UTF-8; `parse` is `json.loads`, `None` for invalid JSON;
      `dump` is `json.dump(..., indent=4)`; `stamp` is the clock reading
      formatted `%Y%m%d_%H%M%S`; `letters` the six random lowercase
      letters. */
  datatype Uploader<!J> = Uploader(
    recv: nat -> Option<string>,
    parse: string -> Option<J>,
    dump: J -> string,
    stamp: string,
    letters: string)

  /** What the clock and the random generator can produce: a stamp of
      digits and underscores, six lowercase ASCII letters. */
  predicate ValidNames<J>(u: Uploader<J>) {
    && (forall i :: 0 <= i < |u.stamp| ==> IsDigit(u.stamp[i]) || u.stamp[i] == '_')
    && |u.letters| == 6
    && (forall i :: 0 <= i < |u.letters| ==> 'a' <= u.letters[i] <= 'z')
  }

  /** A file the handler writes: its path and its text. */
  datatype Upload = Upload(path: string, text: string)

  const ContentLengthName: string := "Content-Length"
  const UploadDir: string := "uploads"
  const ErrorEnvelope: string := "{\"status\": \"error\", \"message\": \"Invalid Request\"}"

  /** The declared body length: the integer field of the first line that
      mentions `Content-Length` anywhere in it (header, request line or
      body line alike), or 0 when no line does. */
  function ScanContentLength(lines: seq<string>): (r: Result<int, Headers.ValueFault>)
    ensures (forall k :: 0 <= k < |lines| ==> !Contains(lines[k], ContentLengthName)) ==> r == Ok(0)
    ensures forall k :: (0 <= k < |lines| && Contains(lines[k], ContentLengthName)
                         && (forall j :: 0 <= j < k ==> !Contains(lines[j], ContentLengthName))
                         ==> r == Headers.IntegerField(lines[k]))
  {
    assert forall k :: (0 <= k < |lines| && Contains(lines[k], ContentLengthName)
                        && (forall j :: 0 <= j < k ==> !Contains(lines[j], ContentLengthName))
                        ==> FirstMention(lines) == Some(k)) by {
      forall k | 0 <= k < |lines| && Contains(lines[k], ContentLengthName)
                 && (forall j :: 0 <= j < k ==> !Contains(lines[j], ContentLengthName))
      {
        FirstMentionIs(lines, k);
      }
    }
    match FirstMention(lines)
    case None => Ok(0)
    case Some(i) => Headers.IntegerField(lines[i])
  }

  /** A line that mentions the name, with no earlier line doing so, is the
      one the scan stops at. */
  lemma FirstMentionIs(lines: seq<string>, k: nat)
    requires k < |lines| && Contains(lines[k], ContentLengthName)
    requires forall j :: 0 <= j < k ==> !Contains(lines[j], ContentLengthName)
    ensures FirstMention(lines) == Some(k)
  {
  }

  /** The index of the first line that mentions `Content-Length`, the line
      at which the scan's loop breaks. */
  function FirstMention(lines: seq<string>): (i: Option<nat>)
    decreases |lines|
    ensures i.None? <==> forall k :: 0 <= k < |lines| ==> !Contains(lines[k], ContentLengthName)
    ensures i.Some? ==> i.value < |lines| && Contains(lines[i.value], ContentLengthName)
    ensures i.Some? ==> forall j :: 0 <= j < i.value ==> !Contains(lines[j], ContentLengthName)
  {
    if |lines| == 0 then None
    else if Contains(lines[0], ContentLengthName) then Some(0)
    else
      var tail := lines[1..];
      assert forall k :: 1 <= k < |lines| ==> lines[k] == tail[k - 1];
      match FirstMention(tail)
      case None => None
      case Some(i) => Some(i + 1)
  }

  /** A line written as `Content-Length: <n>` mentions the header name and
      reads back as `n`. */
  lemma DeclaredLengthLine(n: int)
    ensures Contains("Content-Length: " + IntToString(n), ContentLengthName)
    ensures Headers.IntegerField("Content-Length: " + IntToString(n)) == Ok(n)
  {
    var line := "Content-Length: " + IntToString(n);
    assert line[0..|ContentLengthName|] == ContentLengthName;
    assert OccursAt(line, ContentLengthName, 0);
    assert line == ContentLengthName + ": " + IntToString(n);
    Headers.IntegerFieldRoundTrip(ContentLengthName, n);
  }

  /** The top-up decision as written: compare the body's length in
      characters with the declared length in bytes, and ask for the
      difference. */
  function TopUpAsWritten(body: string, declared: int): (n: Option<nat>)
    ensures n.Some? <==> |body| < declared
    ensures n.Some? ==> |body| + n.value == declared
  {
    if |body| < declared then Some(declared - |body|) else None
  }

  /** The top-up decision as intended: compare the body's length in UTF-8
      bytes with the declared length, and ask for exactly the missing
      bytes. */
  function TopUpBytes(body: string, declared: int): (n: Option<nat>)
    ensures n.Some? <==> |Encode(body)| < declared
    ensures n.Some? ==> |Encode(body)| + n.value == declared
  {
    if |Encode(body)| < declared then Some(declared - |Encode(body)|) else None
  }

  /** How the handler measures the body it already has against
      `Content-Length`: in characters, as `len(body)` does in the code, or
      in UTF-8 bytes, the unit the header counts. */
  datatype LengthRule = CountsCharacters | CountsBytes

  function BodyLength(rule: LengthRule, body: string): nat {
    match rule
    case CountsCharacters => |body|
    case CountsBytes => |Encode(body)|
  }

  /** The top-up decision under either rule: a read is made exactly when
      the measured length falls short, and it asks for the shortfall. */
  function TopUp(rule: LengthRule, body: string, declared: int): (n: Option<nat>)
    ensures n.Some? <==> BodyLength(rule, body) < declared
    ensures n.Some? ==> BodyLength(rule, body) + n.value == declared
  {
    match rule
    case CountsCharacters => TopUpAsWritten(body, declared)
    case CountsBytes => TopUpBytes(body, declared)
  }

  /** When the extra read delivers the bytes asked for, the body then holds
      exactly the declared number of bytes; no read is made for a body that
      already holds them. */
  lemma TopUpCompletesBody(body: string, declared: int, more: string)
    requires TopUpBytes(body, declared).Some? ==> |Encode(more)| == TopUpBytes(body, declared).value
    ensures TopUpBytes(body, declared).Some? ==> |Encode(body + more)| == declared
    ensures TopUpBytes(body, declared).None? <==> |Encode(body)| >= declared
  {
    EncodeAppend(body, more);
  }

  /** For an ASCII body the two decisions agree. */
  lemma TopUpAgreesOnAscii(body: string, declared: int)
    requires forall i :: 0 <= i < |body| ==> IsAscii(body[i])
    ensures TopUpAsWritten(body, declared) == TopUpBytes(body, declared)
  {
    EncodeAscii(body);
  }

  /** A complete one-character body "é" (two bytes, declared as 2): the
      code as written still asks the socket for one more byte, which a
      client waiting for its response never sends; the intended decision
      asks for nothing. */
  lemma TopUpAsWrittenOverReads()
    ensures |Encode("é")| == 2
    ensures TopUpAsWritten("é", 2) == Some(1)
    ensures TopUpBytes("é", 2) == None
  {
    assert Encode("é") == EncodeChar('é') + Encode([]);
  }

  /** The outcome of finding and completing the body: the extra read made,
      if any, and the body text or the fault. */
  datatype BodyRead = BodyRead(topUp: Option<nat>, body: Result<string, PostFault>)

  /** Steps 1-3 of `handle_post`: the declared length from the lines, the
      text after the first blank line of the request, and at most one
      top-up read for the shortfall the rule measures. Under
      `CountsCharacters` this is the code as written; under `CountsBytes`
      the read asks for exactly the missing bytes. */
  function ReadBody<J>(rule: LengthRule, lines: seq<string>, data: string, u: Uploader<J>): (r: BodyRead)
    ensures ScanContentLength(lines).Err? ==>
      r == BodyRead(None, Err(BadContentLength(ScanContentLength(lines).error)))
    ensures ScanContentLength(lines).Ok? && After(data, BlankLine).None? ==>
      r == BodyRead(None, Err(NoBlankLine))
    ensures ScanContentLength(lines).Ok? && After(data, BlankLine).Some? ==>
      var declared := ScanContentLength(lines).value;
      var initial := After(data, BlankLine).value;
      && (r.topUp.Some? <==> BodyLength(rule, initial) < declared)
      && (r.topUp.Some? ==> BodyLength(rule, initial) + r.topUp.value == declared)
      && (r.topUp.None? ==> r.body == Ok(initial))
      && (r.topUp.Some? && u.recv(r.topUp.value).Some? ==>
            r.body == Ok(initial + u.recv(r.topUp.value).value))
      && (r.topUp.Some? && u.recv(r.topUp.value).None? ==> r.body == Err(TopUpFailed))
  {
    match ScanContentLength(lines)
    case Err(f) => BodyRead(None, Err(BadContentLength(f)))
    case Ok(declared) =>
      match After(data, BlankLine)
      case None => BodyRead(None, Err(NoBlankLine))
      case Some(initial) =>
        match TopUp(rule, initial, declared)
        case None => BodyRead(None, Ok(initial))
        case Some(n) =>
          match u.recv(n)
          case None => BodyRead(Some(n), Err(TopUpFailed))
          case Some(more) => BodyRead(Some(n), Ok(initial + more))
  }

  /** In a request whose second line declares the exact byte length of
      what follows the header block's blank line, the declared length and
      that text are found, and the rule's measure of the text decides the
      extra read. */
  lemma DeclaredBodyTopUp<J>(rule: LengthRule, lines: seq<string>, body: string, u: Uploader<J>)
    requires |lines| >= 2
    requires forall k :: 0 <= k < |lines| ==> SafeLine(lines[k])
    requires !Contains(lines[0], ContentLengthName)
    requires lines[1] == "Content-Length: " + IntToString(|Encode(body)|)
    ensures var data := Join(lines, CRLF) + BlankLine + body;
      var r := ReadBody(rule, Split(data, CRLF), data, u);
      && ScanContentLength(Split(data, CRLF)) == Ok(|Encode(body)|)
      && After(data, BlankLine) == Some(body)
      && r.topUp == TopUp(rule, body, |Encode(body)|)
      && (r.topUp.None? ==> r.body == Ok(body))
  {
    var data := Join(lines, CRLF) + BlankLine + body;
    ScanFindsDeclaredLength(lines, |Encode(body)|, body);
    FirstBlankLine(lines, body);
    assert data[|Join(lines, CRLF)| + |BlankLine|..] == body;
  }

  /** Such a request is read without any extra read, and the body is
      exactly the text after the blank line, when the rule counts bytes
      or the text is ASCII. */
  lemma CompleteBodyIsReadAsIs<J>(rule: LengthRule, lines: seq<string>, body: string, u: Uploader<J>)
    requires |lines| >= 2
    requires forall k :: 0 <= k < |lines| ==> SafeLine(lines[k])
    requires !Contains(lines[0], ContentLengthName)
    requires lines[1] == "Content-Length: " + IntToString(|Encode(body)|)
    requires rule == CountsBytes || AsciiText(body)
    ensures var data := Join(lines, CRLF) + BlankLine + body;
      ReadBody(rule, Split(data, CRLF), data, u) == BodyRead(None, Ok(body))
  {
    DeclaredBodyTopUp(rule, lines, body, u);
    if rule == CountsCharacters {
      EncodeAscii(body);
    }
  }

  /** The code as written on a complete body that is not ASCII: it still
      asks the socket for as many bytes as the body has more bytes than
      characters, at least one. A client that has sent its whole request
      and waits for the response sends nothing more. */
  lemma CompleteBodyOverReadAsWritten<J>(lines: seq<string>, body: string, u: Uploader<J>)
    requires |lines| >= 2
    requires forall k :: 0 <= k < |lines| ==> SafeLine(lines[k])
    requires !Contains(lines[0], ContentLengthName)
    requires lines[1] == "Content-Length: " + IntToString(|Encode(body)|)
    requires !AsciiText(body)
    ensures var data := Join(lines, CRLF) + BlankLine + body;
      var r := ReadBody(CountsCharacters, Split(data, CRLF), data, u);
      && r.topUp == Some(|Encode(body)| - |body|)
      && r.topUp.value > 0
  {
    DeclaredBodyTopUp(CountsCharacters, lines, body, u);
    EncodedLength(body);
  }

  /** The two rules read the same body whenever the text after the blank
      line is ASCII (or there is none). */
  lemma ReadBodyAgreesOnAscii<J>(lines: seq<string>, data: string, u: Uploader<J>)
    ensures After(data, BlankLine).None? || AsciiText(After(data, BlankLine).value) ==>
      ReadBody(CountsCharacters, lines, data, u) == ReadBody(CountsBytes, lines, data, u)
  {
    if After(data, BlankLine).Some? && AsciiText(After(data, BlankLine).value) {
      var initial := After(data, BlankLine).value;
      if ScanContentLength(lines).Ok? {
        TopUpAgreesOnAscii(initial, ScanContentLength(lines).value);
      }
    }
  }

  /** `upload_<stamp>_<letters>.json`. The stamp and the letters can be
      read back from their fixed positions in the name. */
  function FileName(stamp: string, letters: string): (name: string)
    ensures |name| == |stamp| + |letters| + 13
    ensures name[..7] == "upload_" && name[|name| - 5..] == ".json"
    ensures name[7..7 + |stamp|] == stamp && name[7 + |stamp|] == '_'
    ensures name[8 + |stamp|..|name| - 5] == letters
  {
    var name := "upload_" + stamp + "_" + letters + ".json";
    assert name[7..7 + |stamp|] == stamp;
    assert name[8 + |stamp|..|name| - 5] == letters;
    name
  }

  /** `json.dumps` of the success record. Its only variable part is the
      file path, which consists of letters, digits, `_`, `.` and `/`, none
      of which JSON escapes. */
  function SuccessEnvelope(filepath: string): (e: string)
    ensures |e| == |SuccessPrefix| + |filepath| + 3
    ensures SuccessPrefix <= e && e[|e| - 2..] == "\"}"
    ensures e[|SuccessPrefix|..|e| - 2] == "/" + filepath
  {
    var e := SuccessPrefix + "/" + filepath + "\"}";
    assert e[|SuccessPrefix|..|e| - 2] == "/" + filepath;
    e
  }

  const SuccessPrefix: string :=
    "{\"status\": \"success\", \"message\": \"File created successfully\", \"filepath\": \""

  /** What one POST produces: the response, the file written (if any) and
      the extra read made (if any). */
  datatype PostOutcome = PostOutcome(response: Response, upload: Option<Upload>, topUp: Option<nat>)

  function BadRequest(): Response {
    Response(400, Textual(ErrorEnvelope), "application/json", [])
  }

  /** `handle_post`: 201 with the stored path when the body parses as
      JSON, otherwise the fixed 400 envelope and no file. */
  function HandlePost<J>(rule: LengthRule, lines: seq<string>, data: string, u: Uploader<J>): (r: PostOutcome)
    requires ValidNames(u)
    ensures r.topUp == ReadBody(rule, lines, data, u).topUp
    ensures r.response.status in {201, 400}
    ensures r.response.status == 201 <==> r.upload.Some?
    ensures r.response.status == 400 ==> r.response == BadRequest() && r.upload.None?
    ensures r.upload.Some? <==>
      ReadBody(rule, lines, data, u).body.Ok? && u.parse(ReadBody(rule, lines, data, u).body.value).Some?
    ensures r.upload.Some? ==>
      var v := u.parse(ReadBody(rule, lines, data, u).body.value).value;
      var path := UploadDir + "/" + FileName(u.stamp, u.letters);
      && r.upload.value == Upload(path, u.dump(v))
      && r.response == Response(201, Textual(SuccessEnvelope(path)), "application/json", [])
  {
    var read := ReadBody(rule, lines, data, u);
    match read.body
    case Err(_) => PostOutcome(BadRequest(), None, read.topUp)
    case Ok(body) =>
      match u.parse(body)
      case None => PostOutcome(BadRequest(), None, read.topUp)
      case Some(v) =>
        var path := UploadDir + "/" + FileName(u.stamp, u.letters);
        PostOutcome(Response(201, Textual(SuccessEnvelope(path)), "application/json", []),
                    Some(Upload(path, u.dump(v))), read.topUp)
  }

  /** When the completed body parses to a value the JSON library reads
      back from its own output, a file is stored and it parses to that
      same value. */
  lemma UploadRoundTrip<J>(rule: LengthRule, lines: seq<string>, data: string, u: Uploader<J>, body: string, v: J)
    requires ValidNames(u)
    ensures ReadBody(rule, lines, data, u).body == Ok(body) && u.parse(body) == Some(v)
            && u.parse(u.dump(v)) == Some(v) ==>
      && HandlePost(rule, lines, data, u).upload.Some?
      && u.parse(HandlePost(rule, lines, data, u).upload.value.text) == Some(v)
  {
  }

  /** In a request whose second line declares `Content-Length: <n>` and
      whose first line does not mention the header, the scan reads `n`,
      whatever the body holds. */
  lemma ScanFindsDeclaredLength(lines: seq<string>, n: int, body: string)
    requires |lines| >= 2
    requires forall k :: 0 <= k < |lines| ==> SafeLine(lines[k])
    requires !Contains(lines[0], ContentLengthName)
    requires lines[1] == "Content-Length: " + IntToString(n)
    ensures ScanContentLength(Split(Join(lines, CRLF) + BlankLine + body, CRLF)) == Ok(n)
  {
    var data := Join(lines, CRLF) + BlankLine + body;
    assert data == Join(lines, CRLF) + CRLF + (CRLF + body);
    SplitAfterLines(lines, CRLF + body, CRLF);
    var all := Split(data, CRLF);
    assert all[0] == lines[0] && all[1] == lines[1];
    DeclaredLengthLine(n);
  }

  /** A request whose second line declares the exact byte length of a
      JSON body is answered 201 without an extra read, and the stored file
      parses back to the posted value whenever the JSON library reads back
      what it writes; as written, for ASCII bodies only. */
  lemma StoresDeclaredBody<J>(rule: LengthRule, lines: seq<string>, body: string, u: Uploader<J>, v: J)
    requires |lines| >= 2
    requires forall k :: 0 <= k < |lines| ==> SafeLine(lines[k])
    requires !Contains(lines[0], ContentLengthName)
    requires lines[1] == "Content-Length: " + IntToString(|Encode(body)|)
    requires rule == CountsBytes || AsciiText(body)
    requires u.parse(body) == Some(v) && u.parse(u.dump(v)) == Some(v)
    requires ValidNames(u)
    ensures var data := Join(lines, CRLF) + BlankLine + body;
      var out := HandlePost(rule, Split(data, CRLF), data, u);
      && out.response.status == 201 && out.topUp.None?
      && out.upload.Some? && u.parse(out.upload.value.text) == Some(v)
  {
    CompleteBodyIsReadAsIs(rule, lines, body, u);
  }

  /** A character JSON writes as itself and a path never splits on:
      ASCII letters, digits, `_` and `.`. */
  predicate PlainNameChar(c: char) {
    'a' <= c <= 'z' || 'A' <= c <= 'Z' || IsDigit(c) || c == '_' || c == '.'
  }

  /** The generated file name has no slash, so the file lands directly in
      the upload directory, and no character JSON would escape, so the
      success envelope above is what `json.dumps` prints for it. */
  lemma FileNameIsPlain<J>(u: Uploader<J>)
    requires ValidNames(u)
    ensures forall i :: 0 <= i < |FileName(u.stamp, u.letters)| ==>
      PlainNameChar(FileName(u.stamp, u.letters)[i])
  {
    var name := FileName(u.stamp, u.letters);
    var n := |u.stamp|;
    assert |name| == n + 19;
    forall i | 0 <= i < |name|
      ensures PlainNameChar(name[i])
    {
      if i < 7 {
        assert name[i] == "upload_"[i];
      } else if i < 7 + n {
        assert name[i] == u.stamp[i - 7];
      } else if i == 7 + n {
        assert name[i] == '_';
      } else if i < 14 + n {
        assert name[i] == u.letters[i - 8 - n];
      } else {
        assert name[i] == ".json"[i - 14 - n];
      }
    }
  }
}

=== FILE: results.dfy ===
/** Failure-carrying values used throughout the model: `Option` for an
    answer that may be absent and `Result` for an operation that either
    succeeds or raises one of the server's error kinds. */
module Results {

  datatype Option<+T> = None | Some(value: T)

  datatype Result<+T, +E> = Ok(value: T) | Err(error: E)
}

=== FILE: text.dfy ===
/** The string primitives the server leans on, each stated with the meaning
    Python gives it: substring search (`in`, `find`), `str.split(sep)`,
    `str.join`, `str.strip()` and `str.strip(chars)`, `int(text)` and
    `str(n)`. Strings are sequences of Unicode scalar values. */
module Text {
  import opened Results

  const CRLF: string := "\r\n"

  /** `pat` occurs in `s` starting at index `i`. */
  predicate OccursAt(s: string, pat: string, i: nat) {
    i + |pat| <= |s| && s[i..i + |pat|] == pat
  }

  /** Python's `pat in s`. */
  predicate Contains(s: string, pat: string) {
    exists i :: 0 <= i <= |s| && OccursAt(s, pat, i)
  }

  /** The first occurrence of `pat` in `s` at or after index `from`. */
  function FindFrom(s: string, pat: string, from: nat): (r: Option<nat>)
    requires from <= |s|
    decreases |s| - from
    ensures r.Some? ==> from <= r.value && OccursAt(s, pat, r.value)
    ensures r.Some? ==> forall j :: from <= j < r.value ==> !OccursAt(s, pat, j)
    ensures r.None? ==> forall j :: from <= j <= |s| ==> !OccursAt(s, pat, j)
  {
    if OccursAt(s, pat, from) then Some(from)
    else if from == |s| then None
    else FindFrom(s, pat, from + 1)
  }

  /** Python's `s.find(pat)`, with `None` for -1. */
  function Find(s: string, pat: string): (r: Option<nat>)
    ensures r.Some? <==> Contains(s, pat)
    ensures r.Some? ==> OccursAt(s, pat, r.value)
    ensures r.Some? ==> forall j :: 0 <= j < r.value ==> !OccursAt(s, pat, j)
  {
    FindFrom(s, pat, 0)
  }

  /** An occurrence inside a prefix of `s` is an occurrence in `s`. */
  lemma OccursInPrefix(s: string, pat: string, n: nat, j: nat)
    requires n <= |s|
    requires OccursAt(s[..n], pat, j)
    ensures OccursAt(s, pat, j) && j + |pat| <= n
  {
    assert s[..n][j..j + |pat|] == s[j..j + |pat|];
  }

  /** Python's `sep.join(parts)`. */
  function Join(parts: seq<string>, sep: string): string
  {
    if |parts| == 0 then ""
    else if |parts| == 1 then parts[0]
    else parts[0] + sep + Join(parts[1..], sep)
  }

  /** Python's `s.split(sep)` for a non-empty separator: the pieces between
      the non-overlapping occurrences of `sep` found scanning left to right.
      Joining the pieces back with `sep` gives `s`, no piece contains `sep`,
      and there is more than one piece exactly when `sep` occurs in `s`.
      Each separator between pieces is the first occurrence in the text
      from the start of the piece before it on, which fixes the pieces
      even for a separator that overlaps itself. */
  function Split(s: string, sep: string): (parts: seq<string>)
    requires |sep| > 0
    decreases |s|
    ensures |parts| >= 1
    ensures Join(parts, sep) == s
    ensures forall k :: 0 <= k < |parts| ==> !Contains(parts[k], sep)
    ensures |parts| == 1 <==> !Contains(s, sep)
    ensures forall k :: 0 <= k < |parts| - 1 ==> Find(Join(parts[k..], sep), sep) == Some(|parts[k]|)
  {
    match Find(s, sep)
    case None => [s]
    case Some(i) =>
      var head := s[..i];
      var rest := Split(s[i + |sep|..], sep);
      var parts := [head] + rest;
      BeforeFirst(s, sep, i);
      assert parts[1..] == rest;
      assert forall k :: 0 <= k < |parts| - 1 ==> Find(Join(parts[k..], sep), sep) == Some(|parts[k]|) by {
        forall k | 0 <= k < |parts| - 1
          ensures Find(Join(parts[k..], sep), sep) == Some(|parts[k]|)
        {
          if k == 0 {
            assert parts[k..] == parts;
          } else {
            assert parts[k..] == rest[k - 1..];
          }
        }
      }
      parts
  }

  /** The text before the first occurrence does not contain the separator,
      and the text is that prefix, the separator and what follows. */
  lemma BeforeFirst(s: string, sep: string, i: nat)
    requires |sep| > 0 && Find(s, sep) == Some(i)
    ensures !Contains(s[..i], sep)
    ensures s == s[..i] + sep + s[i + |sep|..]
  {
    var head := s[..i];
    forall j | 0 <= j <= |head| && OccursAt(head, sep, j)
      ensures false
    {
      OccursInPrefix(s, sep, i, j);
    }
    assert s[i..i + |sep|] == sep;
  }

  /** The first piece of a split is the text before the first separator. */
  lemma SplitFirst(s: string, sep: string)
    requires |sep| > 0
    ensures var parts := Split(s, sep);
      !Contains(parts[0], sep) && (parts[0] == s || parts[0] + sep <= s)
  {
    var parts := Split(s, sep);
    if |parts| > 1 {
      assert s == parts[0] + sep + Join(parts[1..], sep);
    }
  }

  /** Joining pieces that do not contain the separator's first character and
      splitting the result again gives the pieces back. */
  lemma {:induction false} SplitJoin(parts: seq<string>, sep: string)
    requires |parts| >= 1 && |sep| > 0
    requires forall k :: 0 <= k < |parts| ==> sep[0] !in parts[k]
    ensures Split(Join(parts, sep), sep) == parts
  {
    var s := Join(parts, sep);
    var p := parts[0];
    if |parts| == 1 {
      NoFirstCharNoOccurrence(p, sep);
    } else {
      var rest := Join(parts[1..], sep);
      assert s == p + sep + rest;
      FirstOccurrenceAfter(p, sep, rest);
      assert s[..|p|] == p;
      assert s[|p| + |sep|..] == rest;
      SplitJoin(parts[1..], sep);
    }
  }

  /** Splitting text that starts with separator-free lines, each followed
      by the separator, gives those lines first and then the split of the
      remainder. */
  lemma {:induction false} SplitAfterLines(lines: seq<string>, t: string, sep: string)
    requires |lines| >= 1 && |sep| > 0
    requires forall k :: 0 <= k < |lines| ==> sep[0] !in lines[k]
    ensures Split(Join(lines, sep) + sep + t, sep) == lines + Split(t, sep)
  {
    if |lines| == 1 {
      assert Join(lines, sep) == lines[0];
      SplitAfterFirst(lines[0], sep, t);
    } else {
      var tail := lines[1..];
      forall k | 0 <= k < |tail|
        ensures sep[0] !in tail[k]
      {
        assert tail[k] == lines[k + 1];
      }
      SplitAfterLines(tail, t, sep);
      SplitAfterCons(lines, t, sep);
    }
  }

  /** The inductive step of the above, for the first of several lines. */
  lemma SplitAfterCons(lines: seq<string>, t: string, sep: string)
    requires |lines| >= 2 && |sep| > 0 && sep[0] !in lines[0]
    requires Split(Join(lines[1..], sep) + sep + t, sep) == lines[1..] + Split(t, sep)
    ensures Split(Join(lines, sep) + sep + t, sep) == lines + Split(t, sep)
  {
    var x, tail := lines[0], lines[1..];
    var rest := Join(tail, sep) + sep + t;
    JoinThenMore(lines, sep, t);
    SplitAfterFirst(x, sep, rest);
    ConsThen(lines, Split(rest, sep), Split(t, sep));
  }

  lemma JoinThenMore(lines: seq<string>, sep: string, t: string)
    requires |lines| >= 2
    ensures Join(lines, sep) + sep + t == lines[0] + sep + (Join(lines[1..], sep) + sep + t)
  {
    assert Join(lines, sep) == lines[0] + sep + Join(lines[1..], sep);
  }

  /** Regrouping lemmas, stated on bare variables so that callers get the
      reassociation without the solver searching their whole context. */
  lemma Regroup(a: string, sep: string, b: string, c: string)
    ensures a + sep + (b + c) == a + sep + b + c
  {
  }

  lemma ConsThen<T>(xs: seq<T>, mid: seq<T>, after: seq<T>)
    requires |xs| >= 1 && mid == xs[1..] + after
    ensures [xs[0]] + mid == xs + after
  {
    assert xs == [xs[0]] + xs[1..];
  }

  /** One step of the above: a separator-free first piece comes off whole. */
  lemma SplitAfterFirst(x: string, sep: string, rest: string)
    requires |sep| > 0 && sep[0] !in x
    ensures Split(x + sep + rest, sep) == [x] + Split(rest, sep)
  {
    var s := x + sep + rest;
    FirstOccurrenceAfter(x, sep, rest);
    assert s[..|x|] == x;
    assert s[|x| + |sep|..] == rest;
  }

  /** A one-character pattern occurs exactly where the character does. */
  lemma ContainsChar(s: string, c: char)
    ensures Contains(s, [c]) <==> c in s
  {
    if c in s {
      var i :| 0 <= i < |s| && s[i] == c;
      assert s[i..i + 1] == [c];
      assert OccursAt(s, [c], i);
    }
    if Contains(s, [c]) {
      var i :| 0 <= i <= |s| && OccursAt(s, [c], i);
      assert s[i..i + 1][0] == s[i];
    }
  }

  /** A string lacking the separator's first character does not contain it. */
  lemma NoFirstCharNoOccurrence(p: string, sep: string)
    requires |sep| > 0 && sep[0] !in p
    ensures !Contains(p, sep)
  {
    forall j | 0 <= j <= |p|
      ensures !OccursAt(p, sep, j)
    {
      if j + |sep| <= |p| {
        assert p[j..j + |sep|][0] == p[j];
      }
    }
  }

  /** The first occurrence of `sep` in `p + sep + rest` is right after `p`
      when `p` lacks the separator's first character. */
  lemma FirstOccurrenceAfter(p: string, sep: string, rest: string)
    requires |sep| > 0 && sep[0] !in p
    ensures Find(p + sep + rest, sep) == Some(|p|)
  {
    var s := p + sep + rest;
    assert OccursAt(s, sep, |p|) by {
      assert s[|p|..|p| + |sep|] == sep;
    }
    forall j | 0 <= j < |p|
      ensures !OccursAt(s, sep, j)
    {
      if j + |sep| <= |s| {
        assert s[j..j + |sep|][0] == p[j];
      }
    }
  }

  /** Python's `s.split(sep, 1)[1]`: the text after the first occurrence of
      `sep`, or `None` where Python raises `IndexError` because `sep` does
      not occur. */
  function After(s: string, sep: string): (r: Option<string>)
    ensures r.None? <==> !Contains(s, sep)
    ensures r.Some? ==> |r.value| + |sep| <= |s|
    ensures r.Some? ==> var i := |s| - |r.value| - |sep|;
      && s == s[..i] + sep + r.value
      && forall j :: 0 <= j < i ==> !OccursAt(s, sep, j)
  {
    match Find(s, sep)
    case None => None
    case Some(i) =>
      assert s == s[..i] + sep + s[i + |sep|..];
      Some(s[i + |sep|..])
  }

  /** Join of a non-empty list with one more piece appended. */
  lemma {:induction false} JoinSnoc(parts: seq<string>, x: string, sep: string)
    requires |parts| >= 1
    ensures Join(parts + [x], sep) == Join(parts, sep) + sep + x
  {
    if |parts| > 1 {
      assert (parts + [x])[1..] == parts[1..] + [x];
      JoinSnoc(parts[1..], x, sep);
    }
  }

  lemma JoinThree(a: string, b: string, c: string, sep: string)
    ensures Join([a, b, c], sep) == a + sep + b + sep + c
  {
    assert Join([c], sep) == c;
    assert [b, c][1..] == [c];
    assert Join([b, c], sep) == b + sep + c;
    assert [a, b, c][1..] == [b, c];
  }

  /** A join of two or more pieces starts with the first two pieces and
      the separator between them, followed by the end or another
      separator. */
  lemma JoinFirstTwo(parts: seq<string>, sep: string)
    requires |parts| >= 2
    ensures var s := Join(parts, sep);
      s == parts[0] + sep + parts[1] || parts[0] + sep + parts[1] + sep <= s
  {
    var tail := parts[1..];
    assert Join(parts, sep) == parts[0] + sep + Join(tail, sep);
    if |parts| > 2 {
      assert tail[1..] == parts[2..];
      assert Join(tail, sep) == parts[1] + sep + Join(parts[2..], sep);
    } else {
      assert Join(tail, sep) == parts[1];
    }
  }

  /** A join starts with its first piece. */
  lemma JoinStartsWithFirst(parts: seq<string>, sep: string)
    requires |parts| >= 1
    ensures parts[0] <= Join(parts, sep)
  {
  }

  /** Every character of `s` satisfies `keep`. */
  predicate All(s: string, keep: char -> bool) {
    forall i :: 0 <= i < |s| ==> keep(s[i])
  }

  /** Drops the leading characters satisfying `drop`. */
  function TrimLeft(s: string, drop: char -> bool): (r: string)
    ensures |r| <= |s| && r == s[|s| - |r|..]
    ensures All(s[..|s| - |r|], drop)
    ensures r == "" || !drop(r[0])
  {
    if |s| > 0 && drop(s[0]) then
      var r := TrimLeft(s[1..], drop);
      assert s[1..][..|s| - 1 - |r|] == s[1..|s| - |r|];
      r
    else s
  }

  /** Drops the trailing characters satisfying `drop`. */
  function TrimRight(s: string, drop: char -> bool): (r: string)
    ensures |r| <= |s| && r == s[..|r|]
    ensures All(s[|r|..], drop)
    ensures r == "" || !drop(r[|r| - 1])
  {
    if |s| > 0 && drop(s[|s| - 1]) then
      var r := TrimRight(s[..|s| - 1], drop);
      assert s[..|s| - 1][|r|..] + [s[|s| - 1]] == s[|r|..];
      r
    else s
  }

  /** `r` sits at index `i` of `s` with only characters satisfying `drop`
      before and after it. */
  predicate TrimmedAt(s: string, r: string, i: int, drop: char -> bool) {
    && 0 <= i <= |s| - |r|
    && r == s[i..i + |r|]
    && All(s[..i], drop)
    && All(s[i + |r|..], drop)
  }

  lemma TrimWitness(s: string, drop: char -> bool)
    ensures TrimmedAt(s, TrimRight(TrimLeft(s, drop), drop), |s| - |TrimLeft(s, drop)|, drop)
  {
    var left := TrimLeft(s, drop);
    var i := |s| - |left|;
    assert All(s[..i], drop);
    assert left == s[i..];
    var r := TrimRight(left, drop);
    assert All(left[|r|..], drop);
    assert r == left[..|r|];
    assert left[..|r|] == s[i..i + |r|];
    assert left[|r|..] == s[i + |r|..];
  }

  /** Python's `s.strip(chars)` with the characters given as a predicate:
      the result is a slice of `s` with only dropped characters around it
      and none at either of its own ends. */
  function Trim(s: string, drop: char -> bool): (r: string)
    ensures exists i :: TrimmedAt(s, r, i, drop)
    ensures r == "" || (!drop(r[0]) && !drop(r[|r| - 1]))
  {
    TrimWitness(s, drop);
    TrimRight(TrimLeft(s, drop), drop)
  }

  /** Trimming leaves a string alone when neither end can be dropped. */
  lemma TrimUntouched(s: string, drop: char -> bool)
    requires s == "" || (!drop(s[0]) && !drop(s[|s| - 1]))
    ensures Trim(s, drop) == s
  {
  }

  /** Trimming after a prefix of droppable characters ignores that prefix. */
  lemma {:induction false} TrimDropsPrefix(pre: string, s: string, drop: char -> bool)
    requires All(pre, drop)
    ensures TrimLeft(pre + s, drop) == TrimLeft(s, drop)
  {
    if |pre| > 0 {
      assert (pre + s)[1..] == pre[1..] + s;
      TrimDropsPrefix(pre[1..], s, drop);
    } else {
      assert pre + s == s;
    }
  }

  /** The characters Python's `str.isspace()` accepts, which are exactly the
      ones `str.strip()` and `int()` discard. */
  predicate IsSpace(c: char) {
    || c == ' '
    || '\t' <= c <= '\r'
    || '\U{1c}' <= c <= '\U{1f}'
    || c == '\U{85}' || c == '\U{a0}' || c == '\U{1680}'
    || '\U{2000}' <= c <= '\U{200a}'
    || c == '\U{2028}' || c == '\U{2029}' || c == '\U{202f}'
    || c == '\U{205f}' || c == '\U{3000}'
  }

  /** Python's `s.strip()`. */
  function Strip(s: string): string {
    Trim(s, IsSpace)
  }

  predicate IsDigit(c: char) {
    '0' <= c <= '9'
  }

  function DigitValue(c: char): (d: nat)
    requires IsDigit(c)
    ensures d < 10
  {
    (c as int) - ('0' as int)
  }

  function DigitChar(d: nat): (c: char)
    requires d < 10
    ensures IsDigit(c) && DigitValue(c) == d
  {
    (('0' as int) + d) as char
  }

  /** A run of ASCII digits in which single underscores may separate two
      digits, the shape Python's `int()` accepts after the sign. */
  predicate DigitRun(s: string) {
    && |s| > 0
    && IsDigit(s[0])
    && forall i :: 0 <= i < |s| ==> IsDigit(s[i]) || (s[i] == '_' && DigitFollows(s, i))
  }

  /** The character after index `i` exists and is a digit. */
  predicate DigitFollows(s: string, i: nat) {
    i + 1 < |s| && IsDigit(s[i + 1])
  }

  /** The number a digit run denotes, underscores ignored. */
  function RunValue(s: string): nat
    decreases |s|
  {
    if |s| == 0 then 0
    else if IsDigit(s[|s| - 1]) then RunValue(s[..|s| - 1]) * 10 + DigitValue(s[|s| - 1])
    else RunValue(s[..|s| - 1])
  }

  /** Python's `int(s)` on text that has already been stripped: an optional
      sign followed by a digit run; anything else raises `ValueError`,
      modelled as `None`. */
  function ParseInt(s: string): (r: Option<int>)
    ensures r.Some? <==> (DigitRun(s) || (|s| > 0 && (s[0] == '+' || s[0] == '-') && DigitRun(s[1..])))
    ensures r.Some? && |s| > 0 && s[0] == '-' ==> r.value <= 0
    ensures r.Some? && |s| > 0 && s[0] != '-' ==> r.value >= 0
    ensures r.Some? ==> IntToString(r.value) == Canonical(s)
  {
    if |s| > 0 && (s[0] == '+' || s[0] == '-') then
      assert !DigitRun(s);
      if DigitRun(s[1..]) then
        RunCanonical(s[1..]);
        var magnitude: int := RunValue(s[1..]);
        Some(if s[0] == '-' then -magnitude else magnitude)
      else None
    else if DigitRun(s) then
      RunCanonical(s);
      Some(RunValue(s))
    else None
  }

  /** Text `int()` accepts denotes what its canonical rendering denotes:
      "+05", "0_5" and "5" all read as 5. */
  lemma ParseIntCanonical(s: string)
    requires ParseInt(s).Some?
    ensures ParseInt(Canonical(s)) == ParseInt(s)
  {
    IntRoundTrip(ParseInt(s).value);
  }

  /** The text with every underscore removed. */
  function DropUnderscores(s: string): string
    decreases |s|
  {
    if |s| == 0 then ""
    else if s[|s| - 1] == '_' then DropUnderscores(s[..|s| - 1])
    else DropUnderscores(s[..|s| - 1]) + [s[|s| - 1]]
  }

  /** Digits without their leading zeros, keeping at least one digit. */
  function DropLeadingZeros(s: string): string
    decreases |s|
  {
    if |s| > 1 && s[0] == '0' then DropLeadingZeros(s[1..]) else s
  }

  /** How `str(int(s))` writes back text that `int()` accepts: no `+`, no
      underscores, no leading zeros and no sign on zero. */
  function Canonical(s: string): string {
    var signed := |s| > 0 && (s[0] == '+' || s[0] == '-');
    var digits := DropLeadingZeros(DropUnderscores(if signed then s[1..] else s));
    if |s| > 0 && s[0] == '-' && digits != "0" then "-" + digits else digits
  }

  /** Non-empty decimal digits with no leading zero unless they are "0". */
  predicate CanonicalDigits(z: string) {
    |z| > 0 && All(z, IsDigit) && (|z| > 1 ==> z[0] != '0')
  }

  /** Python's `str(n)` for a natural number: decimal digits, no leading zero. */
  function NatToString(n: nat): (s: string)
    decreases n
    ensures |s| > 0 && All(s, IsDigit)
    ensures |s| > 1 ==> s[0] != '0'
  {
    if n < 10 then [DigitChar(n)]
    else NatToString(n / 10) + [DigitChar(n % 10)]
  }

  /** Python's `str(n)` for any integer. */
  function IntToString(n: int): (s: string)
    ensures |s| > 0 && (n < 0 <==> s[0] == '-')
    ensures forall i :: 0 < i < |s| ==> IsDigit(s[i])
  {
    if n < 0 then "-" + NatToString(-n) else NatToString(n)
  }

  lemma {:induction false} NatToStringValue(n: nat)
    ensures DigitRun(NatToString(n)) && RunValue(NatToString(n)) == n
  {
    var s := NatToString(n);
    if n >= 10 {
      NatToStringValue(n / 10);
      assert s[..|s| - 1] == NatToString(n / 10);
    }
  }

  /** `int(str(n)) == n`: the decimal rendering parses back to the number. */
  lemma IntRoundTrip(n: int)
    ensures ParseInt(IntToString(n)) == Some(n)
  {
    if n < 0 {
      NatToStringValue(-n);
      assert IntToString(n)[1..] == NatToString(-n);
    } else {
      NatToStringValue(n);
    }
  }

  lemma {:induction false} DropUnderscoresValue(s: string)
    requires forall i :: 0 <= i < |s| ==> IsDigit(s[i]) || s[i] == '_'
    ensures All(DropUnderscores(s), IsDigit)
    ensures RunValue(DropUnderscores(s)) == RunValue(s)
    ensures |s| > 0 && IsDigit(s[0]) ==> |DropUnderscores(s)| > 0
    decreases |s|
  {
    if |s| > 0 {
      var init, c := s[..|s| - 1], s[|s| - 1];
      DropUnderscoresValue(init);
      if c != '_' {
        var d := DropUnderscores(init);
        assert (d + [c])[..|d|] == d;
      } else if |init| > 0 {
        assert init[0] == s[0];
      }
    }
  }

  /** A leading zero does not change the value of a digit run. */
  lemma {:induction false} LeadingZeroValue(x: string)
    ensures RunValue("0" + x) == RunValue(x)
    decreases |x|
  {
    if |x| > 0 {
      LeadingZeroValue(x[..|x| - 1]);
      assert ("0" + x)[..|x|] == "0" + x[..|x| - 1];
    } else {
      assert ("0" + x)[..0] == "";
    }
  }

  lemma {:induction false} DropLeadingZerosValue(e: string)
    requires |e| > 0 && All(e, IsDigit)
    ensures CanonicalDigits(DropLeadingZeros(e))
    ensures RunValue(DropLeadingZeros(e)) == RunValue(e)
    decreases |e|
  {
    if |e| > 1 && e[0] == '0' {
      DropLeadingZerosValue(e[1..]);
      assert e == "0" + e[1..];
      LeadingZeroValue(e[1..]);
    }
  }

  /** Canonical digits other than "0" denote a positive number, at least
      ten when there are two or more of them. */
  lemma {:induction false} CanonicalPositive(z: string)
    requires CanonicalDigits(z) && z != "0"
    ensures RunValue(z) > 0
    ensures |z| > 1 ==> RunValue(z) >= 10
    decreases |z|
  {
    var init := z[..|z| - 1];
    if |z| > 1 {
      assert init[0] == z[0];
      assert init != "0" by {
        if |init| == 1 {
          assert init[0] != '0';
        }
      }
      CanonicalPositive(init);
    } else {
      assert z[0] != '0';
      assert init == "";
    }
  }

  /** Canonical digits are exactly how `str` writes the number they
      denote. */
  lemma {:induction false} CanonicalDigitsRoundTrip(z: string)
    requires CanonicalDigits(z)
    ensures NatToString(RunValue(z)) == z
    decreases |z|
  {
    var init, c := z[..|z| - 1], z[|z| - 1];
    if |z| == 1 {
      assert init == "";
      assert DigitChar(DigitValue(c)) == c;
      assert z == [c];
    } else {
      assert init[0] == z[0];
      assert init != "0" by {
        if |init| == 1 {
          assert init[0] != '0';
        }
      }
      CanonicalPositive(init);
      CanonicalDigitsRoundTrip(init);
      var n := RunValue(z);
      assert n == RunValue(init) * 10 + DigitValue(c);
      assert n / 10 == RunValue(init) && n % 10 == DigitValue(c);
      assert DigitChar(DigitValue(c)) == c;
      assert z == init + [c];
    }
  }

  /** A digit run denotes the number whose rendering is the run without
      underscores and leading zeros. */
  lemma RunCanonical(d: string)
    requires DigitRun(d)
    ensures var z := DropLeadingZeros(DropUnderscores(d));
      && NatToString(RunValue(d)) == z
      && (RunValue(d) == 0 <==> z == "0")
  {
    DropUnderscoresValue(d);
    var e := DropUnderscores(d);
    DropLeadingZerosValue(e);
    var z := DropLeadingZeros(e);
    CanonicalDigitsRoundTrip(z);
    if z != "0" {
      CanonicalPositive(z);
    }
  }
}

=== FILE: utf8.dfy ===
/** UTF-8, the encoding the server applies to every text it sends
    (`str.encode("utf-8")`) and to the header block. Each Unicode scalar
    value becomes one to four bytes; a value below 0x80 (ASCII) becomes the
    single byte with the same number. */
module Utf8 {

  newtype byte = x: int | 0 <= x < 256

  predicate IsAscii(c: char) {
    (c as int) < 0x80
  }

  predicate AsciiText(s: string) {
    forall i :: 0 <= i < |s| ==> IsAscii(s[i])
  }

  /** The UTF-8 bytes of one scalar value. */
  function EncodeChar(c: char): (bs: seq<byte>)
    ensures 1 <= |bs| <= 4
    ensures |bs| == 1 <==> IsAscii(c)
    ensures IsAscii(c) ==> bs[0] as int == c as int
    ensures !IsAscii(c) ==> forall k :: 0 <= k < |bs| ==> bs[k] >= 0x80
  {
    var n := c as int;
    if n < 0x80 then [n as byte]
    else if n < 0x800 then [(0xC0 + n / 0x40) as byte, (0x80 + n % 0x40) as byte]
    else if n < 0x1_0000 then
      [(0xE0 + n / 0x1000) as byte, (0x80 + (n / 0x40) % 0x40) as byte, (0x80 + n % 0x40) as byte]
    else
      [(0xF0 + n / 0x4_0000) as byte, (0x80 + (n / 0x1000) % 0x40) as byte,
       (0x80 + (n / 0x40) % 0x40) as byte, (0x80 + n % 0x40) as byte]
  }

  /** Python's `s.encode("utf-8")`. */
  function Encode(s: string): (bs: seq<byte>)
    decreases |s|
    ensures |bs| >= |s|
  {
    if |s| == 0 then [] else EncodeChar(s[0]) + Encode(s[1..])
  }

  /** Encoding distributes over concatenation. */
  lemma {:induction false} EncodeAppend(a: string, b: string)
    ensures Encode(a + b) == Encode(a) + Encode(b)
  {
    if |a| == 0 {
      assert a + b == b;
    } else {
      assert (a + b)[1..] == a[1..] + b;
      EncodeAppend(a[1..], b);
    }
  }

  /** A text's byte length equals its length in characters exactly when
      every character is ASCII; otherwise the byte length is larger. This
      is the gap between Python's `len(text)` and the `Content-Length` of
      the same text on the wire. */
  lemma {:induction false} EncodedLength(s: string)
    ensures |Encode(s)| == |s| <==> forall i :: 0 <= i < |s| ==> IsAscii(s[i])
  {
    if |s| > 0 {
      EncodedLength(s[1..]);
      assert forall i :: 0 < i < |s| ==> s[i] == s[1..][i - 1];
    }
  }

  /** An ASCII text encodes byte for character. */
  lemma {:induction false} EncodeAscii(s: string)
    requires forall i :: 0 <= i < |s| ==> IsAscii(s[i])
    ensures |Encode(s)| == |s|
    ensures forall i :: 0 <= i < |s| ==> Encode(s)[i] as int == s[i] as int
  {
    if |s| > 0 {
      EncodeAscii(s[1..]);
      assert forall i :: 0 < i < |s| ==> s[i] == s[1..][i - 1];
    }
  }
}
